=== FILE: README.md ===
# Polygon box tessellation, modelled in Dafny

The repository covers a user-drawn polygon with axis-aligned boxes. It offers four
generators and one post-pass:

- the grid scan (`bruteForce`, `createSquarePolygons`): a grid of squares over the bounding
  box, keeping every square that overlaps the polygon;
- the tiled scanline (`createSquarePolygonsV2`): for every row, the crossings of the polygon's
  edges are sorted and paired, and each pair is covered by grid-aligned squares;
- the scanline (`createScanlines`): one rectangle per pair of crossings per row;
- the quadtree (`createQuadTree`, classes `Rectangle` and `QuadTree`): the bounding box is split
  into quadrants recursively; a quadrant is kept whole when the polygon covers it, dropped when
  it does not touch the polygon, and kept at the depth or size limit;
- the reduction (`reduceRectangles`, `mergeHorizontal`, `mergeVertical`, `fromPoints`): rectangles
  sharing a full edge are merged greedily until a round no longer lowers their number.

The shared geometry (`getBoundingBox`, `pointInPolygon`, `segmentsIntersect`,
`polygonOverlapsPolygon`, `findHorizontalIntersections`) is module `Geometry`. The stepping loop
`for (v = start; v < bound; v += step)` is module `Grid`.

Coordinates are exact reals. Every `for` and `while` loop of the source is a Dafny `method`
with its invariants; the `.map` calls and `fromPoints` are functions.
Each method is proved equal to a specification function. The properties the source relies on
are lemmas about those functions:

- the grid cells overlap the polygon, lie on the grid, come in x-major order and share no
  interior;
- the scanline rectangles join two crossings of the same row, overlap the polygon and share
  no interior;
- the tiled scanline, as written, can emit the same square twice (see Findings); a corrected
  version emits the same squares, each once;
- the quadtree leaves touch the polygon, lie inside the root, do not overlap and are at most
  4^depth in number;
- the reduction never adds rectangles, keeps the total area and reaches a fixpoint.

`Rectangle` is a value (`Quadtree.Rect`). `QuadTree` is a class whose
`GenerateRectangles` appends to its `rectangles` field and raises `maxDepthReached`, as the
source does.

The file `app/script.js` holds a second copy of most of the core:
- geometry at lines 15-165;
- the generators at lines 115-251;
- the quadtree at lines 275-547;
- the reduction at lines 549-700.

Both copies do the same computation. Each row below cites one copy and names the other where
it exists.

The reduction runs `mergeHorizontal` first and `mergeVertical` on its result
(js/reduce.js:9 and app/script.js:556). The model follows the code.

## Model

| member | source | states |
|---|---|---|
| Geometry.BoundingBox | src/algorithms/geometry.js:1-15 | no box exactly for an empty point list; otherwise every point lies in the box, each of the four extremes is attained by some point, and min <= max on both axes (also app/script.js:15-29) |
| Geometry.GetBoundingBox | src/algorithms/geometry.js:1-15 | the loop over the points computes exactly BoundingBox |
| Geometry.PointInPolygon | src/algorithms/geometry.js:17-34 | the even-odd loop returns true exactly when an odd number of edges cross the rightward ray from the point (also app/script.js:31-48 and the Rectangle copy at src/algorithms/quadtree.js:61-80) |
| Geometry.HorizontalEdgeNeverCrosses | src/algorithms/geometry.js:28 | a horizontal edge never toggles the parity, so the division by yj - yi is never reached with a zero divisor |
| Geometry.NoCrossingsOutsideRows | src/algorithms/geometry.js:22-31 | a point above or at the top of every vertex, or below every vertex, meets no crossing edge |
| Geometry.OutsideRowsNotInside | src/algorithms/geometry.js:17-34 | such a point is outside the polygon |
| Geometry.SegmentsMeet | src/algorithms/geometry.js:36-65 | the orientation test of segmentsIntersect as the source writes it: the general case or one of the four collinear onSegment cases, with the zero test as a parameter |
| Geometry.SegmentsIntersect | src/algorithms/geometry.js:36-65 | segmentsIntersect: SegmentsMeet with the 1e-10 tolerant zero test |
| Geometry.SegmentsMeetSymmetric | src/algorithms/geometry.js:36-65 | whether two segments intersect does not depend on which one is given first (also app/script.js:50-79) |
| Geometry.SharedEndpointMeets | src/algorithms/geometry.js:52-62 | segments with a common endpoint always intersect, through the collinear onSegment cases |
| Geometry.ExactAgreesWithTolerant | src/algorithms/geometry.js:37-41 | the 1e-10 tolerant orientation and the exact one of Rectangle.linesIntersect give the same answer whenever each cross value is zero or at least the tolerance |
| Geometry.PolygonOverlapsPolygon | src/algorithms/geometry.js:68-96 | true exactly when a vertex of either polygon lies inside the other or some pair of edges intersects (also app/script.js:82-110) |
| Geometry.OverlapsSymmetric | src/algorithms/geometry.js:68-96 | overlap is symmetric in the two polygons |
| Geometry.EmptyOverlapsNothing | src/algorithms/geometry.js:68-96 | a polygon without points overlaps nothing |
| Geometry.CrossXBetween | src/algorithms/geometry.js:110-111 | the interpolated crossing lies between the x of the edge's two ends |
| Geometry.RowCrossings | src/algorithms/geometry.js:98-117 | no more crossings than edges examined (also app/script.js:146-165) |
| Geometry.RowCrossingsFromEdges | src/algorithms/geometry.js:102-114 | each crossing is that of a non-horizontal edge spanning the row, and lies between that edge's ends |
| Geometry.CrossXOnLine | src/algorithms/geometry.js:110-111 | the interpolated crossing lies exactly on the line through the edge's ends: its cross product with them is zero |
| Geometry.CrossingBoxOverlaps | src/algorithms/geometry.js:68-96 | a box whose bottom edge starts at a crossing of its row overlaps the polygon: that edge meets the crossed polygon edge through the collinear onSegment case |
| Geometry.FindHorizontalIntersections | src/algorithms/geometry.js:98-117 | the loop over the edges returns exactly RowCrossings |
| Grid.StepCount | src/algorithms/bruteForce.js:8 | the number of iterations is exactly the number of k >= 0 whose value start + k * step is below the bound |
| GridScan.ScanColumn | src/algorithms/bruteForce.js:9-22 | the inner y loop returns exactly the column of overlapping squares |
| GridScan.BruteForce | src/algorithms/bruteForce.js:3-26 | the two nested loops return exactly GridScan (also app/js/bbscan.js:4-31 and app/script.js:115-142, which differ only in the unreachable empty-box guard) |
| GridScan.ColumnSound | src/algorithms/bruteForce.js:9-22 | a column has at most one square per y step, and each kept square overlaps and sits on that step |
| GridScan.ColumnOrdered | src/algorithms/bruteForce.js:9-22 | squares of a column come bottom to top |
| GridScan.CellsSound | src/algorithms/bruteForce.js:8-23 | at most m * n squares, each kept and on the grid |
| GridScan.CellsLeftOf | src/algorithms/bruteForce.js:8-23 | every square of the first m columns starts left of column m |
| GridScan.CellsOrdered | src/algorithms/bruteForce.js:8-23 | squares come in strictly increasing x-major order |
| GridScan.GridScanSound | src/algorithms/bruteForce.js:3-26 | an empty polygon yields nothing; at most one square per grid cell of the bounding box; every square overlaps the polygon and has its origin on the grid strictly below (maxX, maxY); squares come in x-major order |
| GridScan.CellsSeparated | src/algorithms/bruteForce.js:8-23 | no two squares of the nested loops share interior, whatever the overlap test keeps |
| GridScan.GridScanSeparated | src/algorithms/bruteForce.js:3-26 | no two squares of the grid scan share interior: squares of different columns are a whole step apart in x, squares of one column a whole step apart in y |
| Scanline.Insert | js/scanline.js:12 | inserting into a sorted list keeps it sorted |
| Scanline.InsertPermutes | js/scanline.js:12 | inserting adds exactly the new value to the list's values |
| Scanline.Sort | js/scanline.js:12 | the numeric sort returns a sorted list |
| Scanline.SortPermutes | js/scanline.js:12 | the sorted list holds exactly the values of the input, so the sort is a permutation |
| Scanline.SortFinds | js/scanline.js:12 | the sort returns the one sorted permutation of its input |
| Scanline.SortedPermutationUnique | js/scanline.js:12 | two sorted permutations of the same values are equal, so the sort result does not depend on the sort algorithm |
| Scanline.ScanRow | js/scanline.js:9-32 | one row: the crossings, sorted, then one rectangle per pair of them |
| Scanline.SpanPairs | js/scanline.js:15-32 | the pair loop returns exactly one rectangle per pair of consecutive sorted crossings, skipping an unpaired last crossing |
| Scanline.CreateScanlines | js/scanline.js:4-36 | the row loop returns exactly the concatenated rows (also app/script.js:216-251) |
| Scanline.SpanRectsShape | js/scanline.js:15-32 | |crossings| / 2 rectangles per row; each runs from an even-indexed crossing to the next at height y to y + s, and they do not overlap along the row |
| Scanline.RowSpansSound | js/scanline.js:9-30 | every rectangle of a row spans between two crossings of that row, left to right |
| Scanline.RowsSound | js/scanline.js:8-33 | every rectangle of the first n rows spans crossings of one of those rows |
| Scanline.SpanOverlaps | js/scanline.js:15-32 | every span rectangle of a row overlaps the polygon in the sense of polygonOverlapsPolygon |
| Scanline.ScanlinesSound | js/scanline.js:4-36 | an empty polygon yields nothing; every rectangle spans crossings of a row y = minY + j * s below maxY, and overlaps the polygon in the sense of polygonOverlapsPolygon |
| Scanline.SpanRectsSeparated | js/scanline.js:15-32 | no two rectangles of a row share interior, and all of them lie between y and y + s |
| Scanline.RowsSeparated | js/scanline.js:8-33 | no two rectangles of the first n rows share interior, and each lies in one of those rows |
| Scanline.ScanlinesSeparated | js/scanline.js:4-36 | no two rectangles of createScanlines share interior |
| Scanline.TileSpan | app/script.js:193-207 | the x loop returns exactly the squares from the grid line at or below startX up to endX |
| Scanline.TileRow | app/script.js:181-209 | one row: the crossings, sorted, then the tiles of every pair |
| Scanline.TilePairs | app/script.js:187-209 | the pair loop returns exactly the tiles of every pair of consecutive sorted crossings, in order |
| Scanline.CreateSquarePolygonsV2 | app/script.js:168-213 | the row loop returns exactly the concatenated tiled rows |
| Scanline.TileStartBounds | app/script.js:194 | Math.floor(startX / s) * s is the grid line at or just below startX |
| Scanline.SpanTilesSound | app/script.js:193-207 | every tile lies on a vertical grid line left of endX, consecutive tiles are s apart, and when startX < endX the tiles run from at or before startX to at least endX |
| Scanline.TiledSpansSound | app/script.js:187-209 | every tile of a row lies on a vertical grid line |
| Scanline.TiledRowsSound | app/script.js:178-210 | every tile of the first n rows lies on a vertical grid line and on one of those rows |
| Scanline.TiledSound | app/script.js:168-213 | an empty polygon yields nothing; every tile is grid-aligned in x and sits on a row minY + j * s below maxY |
| Scanline.UShapeMiddleRow | app/script.js:181-184 | the sorted crossings of the U-shaped polygon's row at height 1 are 0.5, 1.2, 1.5 and 3 |
| Scanline.UShapeRowTiles | app/script.js:187-207 | the spans [0.5, 1.2] and [1.5, 3] with s = 1 both tile the square at (1, 1) |
| Scanline.TiledRepeatsSquare | app/script.js:168-213 | as written, the output for the U-shaped polygon with s = 1 holds two squares that share interior (see Findings) |
| Scanline.FreshSpansBelow | app/script.js:187-207 | with each span's repeats of earlier squares left out, the first k spans' squares share no interior, lie in the row, and each sits at a grid index below the end of the squares emitted so far |
| Scanline.FreshSpansSame | app/script.js:187-207 | for sorted crossings, leaving out the repeats keeps exactly the squares of the row as written |
| Scanline.FreshRowsSeparated | app/script.js:178-210 | the corrected rows share no interior and each square lies in one of them |
| Scanline.FreshRowsSame | app/script.js:178-210 | the corrected rows hold the same squares as the rows as written |
| Scanline.FreshTiledSound | app/script.js:168-213 | the corrected createSquarePolygonsV2 emits no two squares that share interior, so none twice, and emits exactly the squares of the source |
| Quadtree.Rect.ContainsPoint | src/algorithms/quadtree.js:52-59 | containsPoint: the point lies in the closed rectangle, edges included |
| Quadtree.LinesIntersect | src/algorithms/quadtree.js:130-159 | Rectangle.linesIntersect: SegmentsMeet with the exact zero test |
| Quadtree.Rect.LineIntersectsRectangle | src/algorithms/quadtree.js:102-128 | true exactly when the segment meets one of the rectangle's four sides under the exact orientation test (also app/script.js:371-397) |
| Quadtree.Rect.IntersectsPolygon | src/algorithms/quadtree.js:14-50 | false for fewer than three points; otherwise true exactly when a polygon vertex is in the rectangle, a rectangle corner is inside the polygon, or a polygon edge meets a side (also app/script.js:283-319) |
| Quadtree.Rect.IsEntirelyInsidePolygon | src/algorithms/quadtree.js:82-100 | false for fewer than three points; otherwise true exactly when all four corners are inside the polygon (also app/script.js:351-369) |
| Quadtree.CoveredTouches | src/algorithms/quadtree.js:189-204 | a rectangle the polygon covers also touches it, so the covered case is only reached through the touching one |
| Quadtree.Quadrants | src/algorithms/quadtree.js:226-249 | exactly four quadrants |
| Quadtree.QuadrantsTile | src/algorithms/quadtree.js:226-249 | each quadrant has half the width and height and lies within the parent; the quadrants do not overlap; together they hold every point of the parent |
| Quadtree.LeavesSplit | src/algorithms/quadtree.js:251-259 | a split node's leaves are its four quadrants' leaves one after another in visiting order, and its deepest level folds its own depth with theirs in that order |
| Quadtree.LeavesTouch | src/algorithms/quadtree.js:185-260 | every emitted rectangle touches the polygon, and a touching, uncovered node at the limit emits itself alone |
| Quadtree.FewPointsNothing | src/algorithms/quadtree.js:189-191 | a polygon with fewer than three points gives no rectangle and no deeper level |
| Quadtree.LeavesCount | src/algorithms/quadtree.js:207-259 | at most 4^(maxDepth - depth) rectangles |
| Quadtree.LeavesWithin | src/algorithms/quadtree.js:185-260 | every emitted rectangle lies within the node and has no negative side |
| Quadtree.LeavesApart | src/algorithms/quadtree.js:185-260 | no two emitted rectangles overlap |
| Quadtree.ReachedBounds | src/algorithms/quadtree.js:186 | the deepest level reached is between depth and max(depth, maxDepth) |
| Quadtree.QuadTree.constructor | src/algorithms/quadtree.js:177-183 | stores bounds and limits, the limits defaulting to 6 and 10 when left out; starts with no rectangles and deepest level 0 |
| Quadtree.QuadTree.GenerateRectangles | src/algorithms/quadtree.js:185-260 | appends exactly the node's leaves to rectangles and raises maxDepthReached to the deepest level reached (also app/script.js:452-527) |
| Quadtree.QuadTree.GenerateChildren | src/algorithms/quadtree.js:251-259 | the loop over the four quadrants appends their leaves in order and folds their deepest levels into maxDepthReached |
| Quadtree.QuadTree.Child | src/algorithms/quadtree.js:252-258 | a fresh child tree run at the next depth collects exactly the quadrant's leaves and reaches exactly its deepest level |
| Quadtree.AdaptedForms | src/algorithms/quadtree.js:162-171 | each rectangle becomes its four corners, counter-clockwise from (x, y) |
| Quadtree.RootLeaves | src/algorithms/quadtree.js:268-278 | for a polygon with points, the tree starts from the bounding box at depth 0 |
| Quadtree.QuadTreeSound | src/algorithms/quadtree.js:267-280 | fewer than three points give nothing; at most 4^recursionLimit cells; every cell touches the polygon, lies within the bounding box, and no two overlap |
| Quadtree.CreateQuadTree | src/algorithms/quadtree.js:267-280 | returns exactly the corner lists of the tree's leaves (also app/script.js:534-547) |
| Reduce.FromPoints | app/script.js:685-700 | the rectangle has no negative side, holds every point, and each of its four edges passes through some point |
| Reduce.FromPointsRoundTrip | app/script.js:685-700 | fromPoints undoes toAdaptedForm on rectangles with no negative side |
| Reduce.FromAll | js/reduce.js:3 | one rectangle per corner list, in order |
| Reduce.FromAllRoundTrip | js/reduce.js:3 | converting rectangles to corners and back gives them again |
| Reduce.FirstMergeable | js/reduce.js:36-63 | the first later, unused index whose rectangle shares the full edge; none when no such index remains |
| Reduce.Grow | js/reduce.js:34-63 | growing only marks later indices and keeps the seed's corner and its side across the axis |
| Reduce.GrowSide | js/reduce.js:52-60 | the grown side along the axis is the seed's side plus the side of every rectangle absorbed (every index the loop adds to used) |
| Reduce.FindMergeable | js/reduce.js:37-62 | the inner `for j` loop finds exactly FirstMergeable |
| Reduce.Expand | js/reduce.js:31-63 | the `while (foundMerge)` loop computes exactly Grow |
| Reduce.MergePass | js/reduce.js:23-72 | one pass returns exactly Merge |
| Reduce.MergeHorizontal | js/reduce.js:74-123 | mergeHorizontal is the pass along x (also app/script.js:621-670) |
| Reduce.MergeVertical | js/reduce.js:23-72 | mergeVertical is the pass along y (also app/script.js:570-619) |
| Reduce.PassGroupsSides | js/reduce.js:27-69 | the rest of a pass has one group of consumed indices per rectangle it pushes, and each rectangle's side along the axis is the sum of its group's sides |
| Reduce.PassGroupsUnion | js/reduce.js:27-69 | the groups of the rest of a pass are exactly the indices from i on not yet in used |
| Reduce.PassGroupsDisjoint | js/reduce.js:27-69 | no index is in two groups: once used, an index is never absorbed or seeded again |
| Reduce.PassGroupsSeed | js/reduce.js:27-69 | the least index of each rectangle's group is its seed, the index i of the outer loop, whose corner and side across the axis the rectangle keeps |
| Reduce.MergePartition | js/reduce.js:23-72 | a pass consumes every input index exactly once: one group per returned rectangle, groups disjoint and together all the indices, each rectangle's side along the axis the sum of its group's, and each group holding the rectangle's seed as its least index (also js/reduce.js:74-123) |
| Reduce.MergeCount | js/reduce.js:23-72 | a pass never returns more rectangles than it receives, and at least one when it receives any |
| Reduce.MergeArea | js/reduce.js:23-72 | a pass preserves the total area |
| Reduce.PassFromShape | js/reduce.js:23-72 | every merged rectangle keeps the corner and the side across the merge axis of an input rectangle; no negative side appears |
| Reduce.MergeUnchanged | js/reduce.js:23-72 | when no pair shares an edge, a pass returns its input unchanged and in order |
| Reduce.RoundFacts | js/reduce.js:9 | one round (horizontal, then vertical) never adds rectangles, keeps at least one, and preserves area and non-negative sides |
| Reduce.ReduceRectangles | js/reduce.js:2-21 | the outer loop returns exactly Reduced (also app/script.js:549-568) |
| Reduce.ReduceLoopFacts | js/reduce.js:6-17 | the loop keeps between one and the input's count, preserves area and stops where one more round cannot shorten the list |
| Reduce.ReduceLoopIdempotent | js/reduce.js:6-17 | running the loop on its own result changes nothing |
| Reduce.ReducedSound | js/reduce.js:2-21 | no more rectangles than received, at least one for a non-empty input, the same total area, and reducing the output again gives the output |

## Left out

- The canvas drawing, the DOM event handlers, the Svelte stores, `console.log`, the `uuid`
  strings of the scanline rectangles and the timing text are not modelled. They do not
  affect the boxes produced.
- `combineRectangles` (app/script.js:672-683) is not modelled. Nothing calls it.
- `getRectangles` is the `rectangles` field itself.
- Arithmetic is exact. IEEE rounding is not modelled, so the drift of `v += step` after many
  steps is not captured either. The 1e-10 tolerance of the orientation test is kept as the
  constant `Geometry.Epsilon`.
- An empty polygon's bounding box is `None` rather than the +/-Infinity box. Every caller in the
  source produces no boxes for it, and so does the model.
- The generators require a positive step. With a step of zero or less the source loops forever
  on any box with an extent along the outer loop's axis (x for the grid scan, y for the
  scanlines).
- Reduce.FromPoints: requires a non-empty point list. For no points the source builds
  Rectangle(Infinity, Infinity, -Infinity, -Infinity); every caller passes four corners.
- `Array.prototype.sort` is modelled as insertion sort. SortedPermutationUnique shows that any
  correct numeric sort gives the same list.
- The scanline methods concatenate a row's result rather than pushing each box. The order and
  the contents of the list are the same.
- `createQuadTree` in app/script.js takes an extra `squareSize` argument that it ignores. The
  model has only the other three.
- Quadtree.QuadTree.constructor: the defaults maxDepth = 6 and minSize = 10
  (src/algorithms/quadtree.js:177) are the parameter defaults DefaultMaxDepth and
  DefaultMinSize; the constructor's contract states the limits it is given. JavaScript also
  applies them to an explicit `undefined`, which is what the Svelte store passes
  (src/lib/store/generatedSquares.svelte.js:20-24, reading properties the store object does not
  have). CreateQuadTree takes both limits as given, so that `undefined` path is not modelled.
- Quadtree.QuadTree.GenerateRectangles: requires depth >= 0. Every caller passes 0 or a parent's
  depth + 1.
- Quadtree.QuadTree.GenerateRectangles: the children are fresh objects. The model does not
  state that they are unreachable afterwards. The `for (let quadrant of quadrants)` loop is
  the method GenerateChildren, and the creation and run of one child is the method Child.
- Quadtree.QuadTreeSound: the leaves are proved to lie within the root and not to overlap. That
  they cover the polygon is not stated: that needs a proof that the touch test detects every
  rectangle meeting the polygon, which the model does not attempt.
- Reduce.MergePartition: does not state that a pass keeps inputs that share no interior
  apart. The source's merge test compares only coordinates, so rectangles of zero width or
  height may be absorbed next to others; the property holds for interiors only and would need
  an argument over chains of adjacent intervals that the model does not attempt.
- Scanline.TiledSound: does not state that every tile overlaps the polygon, because as written
  that does not hold. The row test of findHorizontalIntersections includes both ends of an edge
  (src/algorithms/geometry.js:109), so a vertex where the boundary passes through the row is
  counted once by each of its two edges. For the polygon (0,0) (10,0) (10,5) (7,5) (7,1) (4,1)
  (3,2) (4,5) (0,5) with s = 1, the row at y = 2 has the sorted crossings 0, 3, 3, 7, 10; the span
  [3, 7] lies in the notch, and its squares at x = 4 and x = 5 overlap no part of the polygon.
  The corrected Scanline.FreshTiled has the same squares and so the same gap.
- The corrected tiled scanline (Scanline.FreshTiled) skips, in each span, the squares the
  previous spans of the row already emitted. It is the model's definition; the source has no
  such function.

## Findings

| source | as written | input that shows it | evidently intended | confidence | as-written member | corrected member |
|---|---|---|---|---|---|---|
| app/script.js:193-207 | each span's squares start at the grid line at or below its start, Math.floor(startX / s) * s, even when an earlier span of the row already emitted that square | the U-shaped polygon (0.5,0) (3,0) (3,2) (1.5,2) (1.5,0.5) (1.2,0.5) (1.2,2) (0.5,2) with s = 1: the row at y = 1 has crossings 0.5, 1.2, 1.5, 3, and both the span [0.5, 1.2] and the span [1.5, 3] emit the square at (1, 1) | each grid square emitted once, no two squares sharing interior | not executed | Scanline.TiledRepeatsSquare | Scanline.FreshTiledSound |

=== FILE: geometry.dfy ===
/** The geometry kernel: bounding box, even-odd point-in-polygon, orientation-based
    segment intersection, polygon overlap and the crossings of a horizontal line.
    Coordinates are exact reals. */
module Geometry {

  datatype Option<T> = None | Some(value: T)

  datatype Point = Point(x: real, y: real)

  /** An implicitly closed ring of vertices: the edge from the last point back to the first is part of it. */
  type Polygon = seq<Point>

  datatype Box = Box(minX: real, maxX: real, minY: real, maxY: real)

  function Min(a: real, b: real): real { if a <= b then a else b }

  function Max(a: real, b: real): real { if a <= b then b else a }

  function Abs(a: real): real { if a < 0.0 then -a else a }

  /** The four corners of the axis-aligned rectangle [x0,x1] x [y0,y1], in the order every
      strategy emits them: (x0,y0), (x1,y0), (x1,y1), (x0,y1). */
  function Corners(x0: real, y0: real, x1: real, y1: real): Polygon
  {
    [Point(x0, y0), Point(x1, y0), Point(x1, y1), Point(x0, y1)]
  }

  // ---------------------------------------------------------------------------------------
  // Bounding box

  predicate InBox(b: Box, p: Point)
  {
    b.minX <= p.x <= b.maxX && b.minY <= p.y <= b.maxY
  }

  /** Each bound of `b` is the coordinate of some point of `pts`. */
  predicate Attained(b: Box, pts: Polygon)
  {
    && (exists i :: 0 <= i < |pts| && pts[i].x == b.minX)
    && (exists i :: 0 <= i < |pts| && pts[i].x == b.maxX)
    && (exists i :: 0 <= i < |pts| && pts[i].y == b.minY)
    && (exists i :: 0 <= i < |pts| && pts[i].y == b.maxY)
  }

  function Include(b: Box, p: Point): Box
  {
    Box(Min(b.minX, p.x), Max(b.maxX, p.x), Min(b.minY, p.y), Max(b.maxY, p.y))
  }

  /** The min/max fold over the points, absent for a polygon with no points. */
  function BoundingBox(pts: Polygon): (b: Option<Box>)
    ensures b.None? <==> pts == []
    ensures b.Some? ==> forall i :: 0 <= i < |pts| ==> InBox(b.value, pts[i])
    ensures b.Some? ==> Attained(b.value, pts)
    ensures b.Some? ==> b.value.minX <= b.value.maxX && b.value.minY <= b.value.maxY
    decreases |pts|
  {
    if pts == [] then None
    else
      var init := pts[..|pts| - 1];
      var last := pts[|pts| - 1];
      assert forall i :: 0 <= i < |init| ==> init[i] == pts[i];
      match BoundingBox(init)
      case None => Some(Box(last.x, last.x, last.y, last.y))
      case Some(b) => Some(Include(b, last))
  }

  /** getBoundingBox: four accumulators updated point by point. */
  method GetBoundingBox(pts: Polygon) returns (b: Option<Box>)
    ensures b == BoundingBox(pts)
  {
    if |pts| == 0 {
      return None;
    }
    var minX, maxX, minY, maxY := pts[0].x, pts[0].x, pts[0].y, pts[0].y;
    assert BoundingBox(pts[..1]) == Some(Box(minX, maxX, minY, maxY)) by {
      assert pts[..1][..0] == [];
    }
    for i := 1 to |pts|
      invariant BoundingBox(pts[..i]) == Some(Box(minX, maxX, minY, maxY))
    {
      assert pts[..i + 1][..i] == pts[..i];
      minX := Min(minX, pts[i].x);
      maxX := Max(maxX, pts[i].x);
      minY := Min(minY, pts[i].y);
      maxY := Max(maxY, pts[i].y);
    }
    assert pts[..|pts|] == pts;
    b := Some(Box(minX, maxX, minY, maxY));
  }

  // ---------------------------------------------------------------------------------------
  // Point in polygon (even-odd rule)

  /** The edge from `a` to `b` toggles the even-odd state of `p`: its y-span straddles p.y
      half-open (one endpoint strictly above, the other not) and the crossing of the ray
      lies strictly right of p. A straddling edge is never horizontal, so the division is defined. */
  predicate Crosses(p: Point, a: Point, b: Point)
  {
    (a.y > p.y) != (b.y > p.y) && p.x < (b.x - a.x) * (p.y - a.y) / (b.y - a.y) + a.x
  }

  /** The index the loop pairs with `i`: the previous vertex, wrapping to the last one. */
  function Prev(i: nat, n: nat): nat
    requires i < n
  {
    if i == 0 then n - 1 else i - 1
  }

  /** Number of toggling edges among the edges (pts[i], pts[Prev(i)]) with i < k. */
  function CrossingCount(p: Point, pts: Polygon, k: nat): nat
    requires k <= |pts|
  {
    if k == 0 then 0
    else CrossingCount(p, pts, k - 1) + (if Crosses(p, pts[k - 1], pts[Prev(k - 1, |pts|)]) then 1 else 0)
  }

  /** The even-odd rule: p is inside iff an odd number of edges toggle. */
  predicate Inside(p: Point, pts: Polygon)
  {
    CrossingCount(p, pts, |pts|) % 2 == 1
  }

  /** pointInPolygon: the (i, j) loop that flips `inside` for every toggling edge. */
  method PointInPolygon(p: Point, pts: Polygon) returns (inside: bool)
    ensures inside <==> CrossingCount(p, pts, |pts|) % 2 == 1
  {
    inside := false;
    var i, j := 0, |pts| - 1;
    while i < |pts|
      invariant 0 <= i <= |pts|
      invariant i < |pts| ==> j == Prev(i, |pts|)
      invariant inside <==> CrossingCount(p, pts, i) % 2 == 1
    {
      if Crosses(p, pts[i], pts[j]) {
        inside := !inside;
      }
      j := i;
      i := i + 1;
    }
  }

  /** A horizontal edge never toggles, whatever the point. */
  lemma HorizontalEdgeNeverCrosses(p: Point, a: Point, b: Point)
    requires a.y == b.y
    ensures !Crosses(p, a, b)
  {
  }

  /** No edge toggles for a point at or above every vertex, or strictly below every vertex. */
  lemma {:induction false} NoCrossingsOutsideRows(p: Point, pts: Polygon, k: nat)
    requires k <= |pts|
    requires (forall i :: 0 <= i < |pts| ==> pts[i].y <= p.y) || (forall i :: 0 <= i < |pts| ==> pts[i].y > p.y)
    ensures CrossingCount(p, pts, k) == 0
  {
    if k > 0 {
      NoCrossingsOutsideRows(p, pts, k - 1);
    }
  }

  /** A point whose y is at or above every vertex, or strictly below every vertex, is never
      inside; in particular the empty polygon contains nothing. */
  lemma OutsideRowsNotInside(p: Point, pts: Polygon)
    requires (forall i :: 0 <= i < |pts| ==> pts[i].y <= p.y) || (forall i :: 0 <= i < |pts| ==> pts[i].y > p.y)
    ensures !Inside(p, pts)
  {
    NoCrossingsOutsideRows(p, pts, |pts|);
  }

  // ---------------------------------------------------------------------------------------
  // Segment intersection

  /** The three results of `orientation`: 0, 1 and 2 in the source. */
  datatype Turn = Collinear | Clockwise | CounterClockwise

  /** How a cross product is declared zero: below an absolute tolerance (the kernel's
      segmentsIntersect) or only when exactly zero (Rectangle.linesIntersect). */
  datatype ZeroTest = Tolerant | Exact

  const Epsilon: real := 0.0000000001

  function Cross(p: Point, q: Point, r: Point): real
  {
    (q.y - p.y) * (r.x - q.x) - (q.x - p.x) * (r.y - q.y)
  }

  predicate IsZero(z: ZeroTest, v: real)
  {
    match z
    case Tolerant => Abs(v) < Epsilon
    case Exact => v == 0.0
  }

  function Orientation(z: ZeroTest, p: Point, q: Point, r: Point): Turn
  {
    var v := Cross(p, q, r);
    if IsZero(z, v) then Collinear else if v > 0.0 then Clockwise else CounterClockwise
  }

  /** q lies in the closed bounding box of p and r. */
  predicate OnSegment(p: Point, q: Point, r: Point)
  {
    q.x <= Max(p.x, r.x) && q.x >= Min(p.x, r.x) && q.y <= Max(p.y, r.y) && q.y >= Min(p.y, r.y)
  }

  /** The orientation test: the general case (both orientation pairs differ) or one of the
      four collinear cases with the extra bounding-box check. */
  predicate SegmentsMeet(z: ZeroTest, p1: Point, q1: Point, p2: Point, q2: Point)
  {
    var o1 := Orientation(z, p1, q1, p2);
    var o2 := Orientation(z, p1, q1, q2);
    var o3 := Orientation(z, p2, q2, p1);
    var o4 := Orientation(z, p2, q2, q1);
    || (o1 != o2 && o3 != o4)
    || (o1 == Collinear && OnSegment(p1, p2, q1))
    || (o2 == Collinear && OnSegment(p1, q2, q1))
    || (o3 == Collinear && OnSegment(p2, p1, q2))
    || (o4 == Collinear && OnSegment(p2, q1, q2))
  }

  /** segmentsIntersect: the tolerant form. */
  predicate SegmentsIntersect(p1: Point, q1: Point, p2: Point, q2: Point)
  {
    SegmentsMeet(Tolerant, p1, q1, p2, q2)
  }

  /** The test does not depend on which segment is named first. */
  lemma SegmentsMeetSymmetric(z: ZeroTest, p1: Point, q1: Point, p2: Point, q2: Point)
    ensures SegmentsMeet(z, p1, q1, p2, q2) <==> SegmentsMeet(z, p2, q2, p1, q1)
  {
  }

  /** The cross product of a degenerate triple, where the last point repeats one of the first two, is zero. */
  lemma CrossOfRepeatedPoint(p: Point, q: Point)
    ensures Cross(p, q, p) == 0.0 && Cross(p, q, q) == 0.0
  {
    assert (q.y - p.y) * (p.x - q.x) == -((q.x - p.x) * (q.y - p.y));
  }

  /** Two segments that share an endpoint always meet. */
  lemma SharedEndpointMeets(z: ZeroTest, p1: Point, q1: Point, p2: Point, q2: Point)
    requires p1 == p2 || p1 == q2 || q1 == p2 || q1 == q2
    ensures SegmentsMeet(z, p1, q1, p2, q2)
  {
    CrossOfRepeatedPoint(p1, q1);
    CrossOfRepeatedPoint(p2, q2);
  }

  /** The exact and the tolerant tests agree whenever none of the four cross products falls
      strictly between zero and the tolerance in absolute value. */
  lemma ExactAgreesWithTolerant(p1: Point, q1: Point, p2: Point, q2: Point)
    requires forall v :: v in [Cross(p1, q1, p2), Cross(p1, q1, q2), Cross(p2, q2, p1), Cross(p2, q2, q1)]
               ==> v == 0.0 || Abs(v) >= Epsilon
    ensures SegmentsMeet(Exact, p1, q1, p2, q2) <==> SegmentsMeet(Tolerant, p1, q1, p2, q2)
  {
    assert Cross(p1, q1, p2) in [Cross(p1, q1, p2), Cross(p1, q1, q2), Cross(p2, q2, p1), Cross(p2, q2, q1)];
    assert Cross(p1, q1, q2) in [Cross(p1, q1, p2), Cross(p1, q1, q2), Cross(p2, q2, p1), Cross(p2, q2, q1)];
    assert Cross(p2, q2, p1) in [Cross(p1, q1, p2), Cross(p1, q1, q2), Cross(p2, q2, p1), Cross(p2, q2, q1)];
    assert Cross(p2, q2, q1) in [Cross(p1, q1, p2), Cross(p1, q1, q2), Cross(p2, q2, p1), Cross(p2, q2, q1)];
  }

  // ---------------------------------------------------------------------------------------
  // Polygon overlap

  /** Edge i of a ring runs from pts[i] to the next vertex, wrapping at the end. */
  function Next(i: nat, n: nat): nat
    requires i < n
  {
    (i + 1) % n
  }

  predicate EdgesMeet(a: Polygon, i: nat, b: Polygon, j: nat)
    requires i < |a| && j < |b|
  {
    SegmentsIntersect(a[i], a[Next(i, |a|)], b[j], b[Next(j, |b|)])
  }

  predicate SomeVertexInside(a: Polygon, b: Polygon)
  {
    exists i :: 0 <= i < |a| && Inside(a[i], b)
  }

  predicate SomeEdgesMeet(a: Polygon, b: Polygon)
  {
    exists i, j :: 0 <= i < |a| && 0 <= j < |b| && EdgesMeet(a, i, b, j)
  }

  /** A vertex of either polygon lies inside the other, or some pair of edges intersects. */
  predicate Overlaps(a: Polygon, b: Polygon)
  {
    SomeVertexInside(a, b) || SomeVertexInside(b, a) || SomeEdgesMeet(a, b)
  }

  /** polygonOverlapsPolygon: three loops with early returns. */
  method PolygonOverlapsPolygon(a: Polygon, b: Polygon) returns (r: bool)
    ensures r <==> Overlaps(a, b)
  {
    for i := 0 to |a|
      invariant forall k :: 0 <= k < i ==> !Inside(a[k], b)
    {
      var inside := PointInPolygon(a[i], b);
      if inside {
        return true;
      }
    }
    for i := 0 to |b|
      invariant forall k :: 0 <= k < i ==> !Inside(b[k], a)
    {
      var inside := PointInPolygon(b[i], a);
      if inside {
        return true;
      }
    }
    for i := 0 to |a|
      invariant forall k, l :: 0 <= k < i && 0 <= l < |b| ==> !EdgesMeet(a, k, b, l)
    {
      for j := 0 to |b|
        invariant forall l :: 0 <= l < j ==> !EdgesMeet(a, i, b, l)
      {
        if SegmentsIntersect(a[i], a[(i + 1) % |a|], b[j], b[(j + 1) % |b|]) {
          assert EdgesMeet(a, i, b, j);
          return true;
        }
      }
    }
    return false;
  }

  /** Overlap is symmetric in its two polygons. */
  lemma OverlapsSymmetric(a: Polygon, b: Polygon)
    ensures Overlaps(a, b) <==> Overlaps(b, a)
  {
    if SomeEdgesMeet(a, b) {
      var i, j :| 0 <= i < |a| && 0 <= j < |b| && EdgesMeet(a, i, b, j);
      SegmentsMeetSymmetric(Tolerant, a[i], a[Next(i, |a|)], b[j], b[Next(j, |b|)]);
      assert EdgesMeet(b, j, a, i);
    }
    if SomeEdgesMeet(b, a) {
      var j, i :| 0 <= j < |b| && 0 <= i < |a| && EdgesMeet(b, j, a, i);
      SegmentsMeetSymmetric(Tolerant, b[j], b[Next(j, |b|)], a[i], a[Next(i, |a|)]);
      assert EdgesMeet(a, i, b, j);
    }
  }

  /** A polygon without points overlaps nothing. */
  lemma EmptyOverlapsNothing(a: Polygon, b: Polygon)
    requires a == [] || b == []
    ensures !Overlaps(a, b)
  {
  }

  // ---------------------------------------------------------------------------------------
  // Crossings of a horizontal line

  /** The edge from a to b is cut by the line at height y: y lies in its closed y-range and
      the edge is not horizontal. */
  predicate SpansRow(a: Point, b: Point, y: real)
  {
    y >= Min(a.y, b.y) && y <= Max(a.y, b.y) && a.y != b.y
  }

  /** The x-coordinate where the line at height y meets the line through a and b. */
  function CrossX(a: Point, b: Point, y: real): real
    requires a.y != b.y
  {
    var t := (y - a.y) / (b.y - a.y);
    a.x + t * (b.x - a.x)
  }

  predicate EdgeSpansRow(pts: Polygon, i: nat, y: real)
    requires i < |pts|
  {
    SpansRow(pts[i], pts[Next(i, |pts|)], y)
  }

  function EdgeCrossX(pts: Polygon, i: nat, y: real): real
    requires i < |pts| && EdgeSpansRow(pts, i, y)
  {
    CrossX(pts[i], pts[Next(i, |pts|)], y)
  }

  /** The interpolation parameter lies in [0, 1], so the crossing lies between the edge's end x-coordinates. */
  lemma CrossXBetween(a: Point, b: Point, y: real)
    requires SpansRow(a, b, y)
    ensures Min(a.x, b.x) <= CrossX(a, b, y) <= Max(a.x, b.x)
  {
    var t := (y - a.y) / (b.y - a.y);
    UnitParameter(y - a.y, b.y - a.y, t);
    var d := b.x - a.x;
    assert CrossX(a, b, y) == a.x + t * d;
    if d >= 0.0 {
      assert 0.0 <= t * d <= d by { assert d - t * d == (1.0 - t) * d; }
    } else {
      assert d <= t * d <= 0.0 by { assert t * d - d == (1.0 - t) * (-d); }
    }
  }

  /** y - a.y divided by b.y - a.y, with y between a.y and b.y, lies in [0, 1]. */
  lemma UnitParameter(num: real, den: real, t: real)
    requires den != 0.0 && t == num / den
    requires (0.0 <= num <= den) || (den <= num <= 0.0)
    ensures 0.0 <= t <= 1.0
  {
    assert t * den == num;
  }

  /** v is where some edge i < k that spans the row at height y crosses it, and so lies
      between that edge's end x-coordinates. */
  ghost predicate CrossingOfEdge(pts: Polygon, y: real, k: nat, v: real)
    requires k <= |pts|
  {
    exists i :: 0 <= i < k && EdgeSpansRow(pts, i, y) && v == EdgeCrossX(pts, i, y)
                && Min(pts[i].x, pts[Next(i, |pts|)].x) <= v <= Max(pts[i].x, pts[Next(i, |pts|)].x)
  }

  /** The crossings contributed by the edges i < k, in edge order: no more crossings than
      edges examined. */
  function RowCrossings(pts: Polygon, y: real, k: nat): (xs: seq<real>)
    requires k <= |pts|
    ensures |xs| <= k
  {
    if k == 0 then []
    else
      var rest := RowCrossings(pts, y, k - 1);
      if EdgeSpansRow(pts, k - 1, y) then rest + [EdgeCrossX(pts, k - 1, y)]
      else rest
  }

  /** Every crossing of the edges i < k comes from one of those edges that spans the row, and
      lies between that edge's end x-coordinates. */
  lemma {:induction false} RowCrossingsFromEdges(pts: Polygon, y: real, k: nat)
    requires k <= |pts|
    ensures forall v :: v in RowCrossings(pts, y, k) ==> CrossingOfEdge(pts, y, k, v)
  {
    if k > 0 {
      RowCrossingsFromEdges(pts, y, k - 1);
      var rest := RowCrossings(pts, y, k - 1);
      forall v | v in RowCrossings(pts, y, k)
        ensures CrossingOfEdge(pts, y, k, v)
      {
        if v !in rest {
          assert EdgeSpansRow(pts, k - 1, y) && v == EdgeCrossX(pts, k - 1, y);
          CrossXBetween(pts[k - 1], pts[Next(k - 1, |pts|)], y);
        }
      }
    }
  }

  /** The crossing lies exactly on the line through the edge's ends. */
  lemma CrossXOnLine(a: Point, b: Point, y: real)
    requires a.y != b.y
    ensures Cross(a, b, Point(CrossX(a, b, y), y)) == 0.0
  {
    var t := (y - a.y) / (b.y - a.y);
    assert (b.y - a.y) * t == y - a.y;
    calc {
      Cross(a, b, Point(CrossX(a, b, y), y));
      (b.y - a.y) * (a.x + t * (b.x - a.x) - b.x) - (b.x - a.x) * (y - b.y);
      (b.x - a.x) * ((b.y - a.y) * t - (b.y - a.y) - (y - b.y));
      0.0;
    }
  }

  /** A box whose bottom edge starts at a crossing of the row at height y overlaps the polygon:
      that bottom edge meets the polygon edge the crossing comes from, through the collinear
      case of the orientation test. */
  lemma CrossingBoxOverlaps(pts: Polygon, y: real, a: real, c: real, y1: real)
    requires a in RowCrossings(pts, y, |pts|)
    ensures Overlaps(Corners(a, y, c, y1), pts)
  {
    RowCrossingsFromEdges(pts, y, |pts|);
    var i :| 0 <= i < |pts| && EdgeSpansRow(pts, i, y) && a == EdgeCrossX(pts, i, y)
             && Min(pts[i].x, pts[Next(i, |pts|)].x) <= a <= Max(pts[i].x, pts[Next(i, |pts|)].x);
    var p, q := pts[i], pts[Next(i, |pts|)];
    CrossXOnLine(p, q, y);
    var box := Corners(a, y, c, y1);
    assert box[Next(0, 4)] == Point(c, y);
    assert Orientation(Tolerant, p, q, box[0]) == Collinear;
    assert OnSegment(p, box[0], q);
    assert EdgesMeet(box, 0, pts, i);
  }

  /** findHorizontalIntersections: one loop over the edges pushing each crossing. */
  method FindHorizontalIntersections(pts: Polygon, y: real) returns (xs: seq<real>)
    ensures xs == RowCrossings(pts, y, |pts|)
  {
    xs := [];
    for i := 0 to |pts|
      invariant xs == RowCrossings(pts, y, i)
    {
      var p1 := pts[i];
      var p2 := pts[(i + 1) % |pts|];
      var minY := Min(p1.y, p2.y);
      var maxY := Max(p1.y, p2.y);
      if y >= minY && y <= maxY && p1.y != p2.y {
        var t := (y - p1.y) / (p2.y - p1.y);
        var x := p1.x + t * (p2.x - p1.x);
        assert EdgeSpansRow(pts, i, y) && x == EdgeCrossX(pts, i, y);
        xs := xs + [x];
      } else {
        assert !EdgeSpansRow(pts, i, y);
      }
    }
  }
}

=== FILE: grid.dfy ===
/** The stepping shared by every generator: `for (v = start; v < bound; v += step)`.
    With exact arithmetic the k-th value of v is start + k * step. */
module Grid {
  import opened Geometry

  /** The value of the loop variable after k steps. */
  function StepAt(start: real, step: real, k: int): real
  {
    start + k as real * step
  }

  /** One more iteration adds exactly one step. */
  lemma StepNext(start: real, step: real, k: int)
    ensures StepAt(start, step, k + 1) == StepAt(start, step, k) + step
  {
    assert (k + 1) as real * step == k as real * step + step;
  }

  lemma ScaleLess(a: real, b: real, s: real)
    requires s > 0.0
    ensures a < b <==> a * s < b * s
  {
    if a < b {
      assert (b - a) * s > 0.0;
    } else {
      assert (a - b) * s >= 0.0;
    }
  }

  /** Later iterations take strictly larger values. */
  lemma StepAtLess(start: real, step: real, i: int, j: int)
    requires step > 0.0 && i < j
    ensures StepAt(start, step, i) < StepAt(start, step, j)
  {
    ScaleLess(i as real, j as real, step);
  }

  /** The number of iterations of the loop: exactly the k >= 0 whose value is still below the bound. */
  function StepCount(start: real, bound: real, step: real): (n: nat)
    requires step > 0.0
    ensures forall k: int {:trigger StepAt(start, step, k)} :: 0 <= k ==> (k < n <==> StepAt(start, step, k) < bound)
  {
    var q := (bound - start) / step;
    var c := -(-q).Floor;
    assert q <= c as real < q + 1.0;
    forall k: int | 0 <= k
      ensures k < (if c <= 0 then 0 else c) <==> StepAt(start, step, k) < bound
    {
      assert q * step == bound - start;
      assert k < c <==> k as real < q;
      ScaleLess(k as real, q, step);
    }
    if c <= 0 then 0 else c
  }

  /** The z-th grid line of spacing s: a whole multiple of s. */
  function GridLine(z: int, s: real): real
  {
    z as real * s
  }

  /** The s-by-s square with lower corner (x, y), corners in the emitted order. */
  function Square(x: real, y: real, s: real): Polygon
  {
    Corners(x, y, x + s, y + s)
  }

  // ---------------------------------------------------------------------------------------
  // Boxes that share no interior

  /** Earlier iterations lie at least one whole step below later ones. */
  lemma StepAtGap(start: real, step: real, i: int, j: int)
    requires step > 0.0 && i < j
    ensures StepAt(start, step, i) + step <= StepAt(start, step, j)
  {
    assert StepAt(start, step, j) - StepAt(start, step, i) - step == (j - i - 1) as real * step;
  }

  /** Two iterations are ordered as their indices are. */
  lemma StepAtOrder(start: real, step: real, i: int, j: int)
    requires step > 0.0
    ensures StepAt(start, step, i) < StepAt(start, step, j) <==> i < j
    ensures StepAt(start, step, i) == StepAt(start, step, j) <==> i == j
  {
    if i < j {
      StepAtLess(start, step, i, j);
    } else if j < i {
      StepAtLess(start, step, j, i);
    }
  }

  /** Two boxes, each listed lower corner first and upper corner third, share no interior:
      one lies wholly left of, right of, below or above the other. */
  predicate Separated(p: Polygon, q: Polygon)
  {
    && |p| == 4 && |q| == 4
    && (p[2].x <= q[0].x || q[2].x <= p[0].x || p[2].y <= q[0].y || q[2].y <= p[0].y)
  }

  /** No two boxes of the list share interior. */
  predicate PairwiseSeparated(ps: seq<Polygon>)
  {
    forall a, b :: 0 <= a < b < |ps| ==> Separated(ps[a], ps[b])
  }

  /** The box spans exactly the heights [y, y + s]. */
  predicate InRow(p: Polygon, y: real, s: real)
  {
    |p| == 4 && p[0].y == y && p[2].y == y + s
  }

  /** The box spans the heights of one of the rows y0 + j*s with j < n. */
  ghost predicate InSomeRow(p: Polygon, y0: real, s: real, n: nat)
  {
    exists j: nat :: j < n && InRow(p, StepAt(y0, s, j), s)
  }

  /** Putting the boxes of row n on top of boxes of the rows below it keeps every pair
      separated: boxes of different rows are a whole step apart in height. */
  lemma StackRow(below: seq<Polygon>, row: seq<Polygon>, y0: real, s: real, n: nat)
    requires s > 0.0
    requires PairwiseSeparated(below) && PairwiseSeparated(row)
    requires forall a :: 0 <= a < |below| ==> InSomeRow(below[a], y0, s, n)
    requires forall b :: 0 <= b < |row| ==> InRow(row[b], StepAt(y0, s, n), s)
    ensures PairwiseSeparated(below + row)
    ensures forall a :: 0 <= a < |below + row| ==> InSomeRow((below + row)[a], y0, s, n + 1)
  {
    var all := below + row;
    forall a, b | 0 <= a < b < |all|
      ensures Separated(all[a], all[b])
    {
      if b < |below| {
        assert all[a] == below[a] && all[b] == below[b];
      } else if a >= |below| {
        assert all[a] == row[a - |below|] && all[b] == row[b - |below|];
      } else {
        assert all[a] == below[a] && all[b] == row[b - |below|];
        var j: nat :| j < n && InRow(below[a], StepAt(y0, s, j), s);
        StepAtGap(y0, s, j, n);
      }
    }
    forall a | 0 <= a < |all|
      ensures InSomeRow(all[a], y0, s, n + 1)
    {
      if a < |below| {
        assert all[a] == below[a];
        var j: nat :| j < n && InRow(below[a], StepAt(y0, s, j), s);
        assert j < n + 1 && InRow(all[a], StepAt(y0, s, j), s);
      } else {
        assert all[a] == row[a - |below|];
        assert n < n + 1 && InRow(all[a], StepAt(y0, s, n), s);
      }
    }
  }
}

=== FILE: gridscan.dfy ===
/** The grid scan strategy: enumerate s-by-s squares over the bounding box, column by column,
    and keep those that overlap the polygon. */
module GridScan {
  import opened Geometry
  import opened Grid

  /** The test a square must pass to be emitted: it overlaps the polygon (square as first argument). */
  function OverlapTest(poly: Polygon): Polygon -> bool
  {
    square => Overlaps(square, poly)
  }

  /** `keep` decides exactly as the overlap test does. */
  ghost predicate AgreesWithOverlap(keep: Polygon -> bool, poly: Polygon)
  {
    forall sq {:trigger Overlaps(sq, poly)} :: keep(sq) == Overlaps(sq, poly)
  }

  /** The square when it passes the test, nothing otherwise. */
  function Keep(keep: Polygon -> bool, square: Polygon): seq<Polygon>
  {
    if keep(square) then [square] else []
  }

  /** The kept squares of the column at x for the first n rows y0 + j*s, in row order. */
  function Column(keep: Polygon -> bool, x: real, y0: real, s: real, n: nat): seq<Polygon>
  {
    if n == 0 then []
    else Column(keep, x, y0, s, n - 1) + Keep(keep, Square(x, StepAt(y0, s, n - 1), s))
  }

  /** The kept squares of the first m columns x0 + i*s, each with n rows, column after column
      (x-major order). */
  function Cells(keep: Polygon -> bool, x0: real, y0: real, s: real, m: nat, n: nat): seq<Polygon>
  {
    if m == 0 then []
    else Cells(keep, x0, y0, s, m - 1, n) + Column(keep, StepAt(x0, s, m - 1), y0, s, n)
  }

  /** What the grid scan returns: nothing for a polygon without points, otherwise the kept
      squares of the grid minX + i*s < maxX, minY + j*s < maxY. */
  function GridScan(poly: Polygon, s: real): seq<Polygon>
    requires s > 0.0
  {
    match BoundingBox(poly)
    case None => []
    case Some(b) =>
      Cells(OverlapTest(poly), b.minX, b.minY, s, StepCount(b.minX, b.maxX, s), StepCount(b.minY, b.maxY, s))
  }

  /** The inner loop of bruteForce / createSquarePolygons: one column of squares at x, pushed in
      row order when they overlap the polygon. The column is stated for any test `keep` that
      agrees with the overlap test. */
  method ScanColumn(poly: Polygon, ghost keep: Polygon -> bool, x: real, minY: real, maxY: real, s: real)
    returns (col: seq<Polygon>)
    requires s > 0.0
    requires AgreesWithOverlap(keep, poly)
    ensures col == Column(keep, x, minY, s, StepCount(minY, maxY, s))
  {
    ghost var n := StepCount(minY, maxY, s);
    col := [];
    var y, j := minY, 0;
    while y < maxY
      invariant 0 <= j <= n && y == StepAt(minY, s, j)
      invariant col == Column(keep, x, minY, s, j)
      decreases n - j
    {
      var square := Square(x, y, s);
      var overlaps := PolygonOverlapsPolygon(square, poly);
      if overlaps {
        col := col + [square];
      }
      StepNext(minY, s, j);
      y, j := y + s, j + 1;
    }
  }

  /** A test that agrees with the overlap test everywhere exists. */
  lemma OverlapTestExists(poly: Polygon)
    ensures exists keep :: AgreesWithOverlap(keep, poly)
  {
    assert AgreesWithOverlap(OverlapTest(poly), poly);
  }

  /** Columns depend on the test only through its values. */
  lemma {:induction false} ColumnAgree(k1: Polygon -> bool, k2: Polygon -> bool, x: real, y0: real, s: real, n: nat)
    requires forall sq :: k1(sq) == k2(sq)
    ensures Column(k1, x, y0, s, n) == Column(k2, x, y0, s, n)
  {
    if n > 0 {
      ColumnAgree(k1, k2, x, y0, s, n - 1);
    }
  }

  /** Cells depend on the test only through its values. */
  lemma {:induction false} CellsAgree(k1: Polygon -> bool, k2: Polygon -> bool, x0: real, y0: real, s: real, m: nat, n: nat)
    requires forall sq :: k1(sq) == k2(sq)
    ensures Cells(k1, x0, y0, s, m, n) == Cells(k2, x0, y0, s, m, n)
  {
    if m > 0 {
      CellsAgree(k1, k2, x0, y0, s, m - 1, n);
      ColumnAgree(k1, k2, StepAt(x0, s, m - 1), y0, s, n);
    }
  }

  /** The grid scan computed with any test that agrees with the overlap test. */
  lemma GridScanWith(poly: Polygon, s: real, keep: Polygon -> bool)
    requires s > 0.0
    requires AgreesWithOverlap(keep, poly)
    ensures match BoundingBox(poly)
            case None => GridScan(poly, s) == []
            case Some(b) =>
              GridScan(poly, s) == Cells(keep, b.minX, b.minY, s, StepCount(b.minX, b.maxX, s), StepCount(b.minY, b.maxY, s))
  {
    if BoundingBox(poly).Some? {
      var b := BoundingBox(poly).value;
      CellsAgree(OverlapTest(poly), keep, b.minX, b.minY, s, StepCount(b.minX, b.maxX, s), StepCount(b.minY, b.maxY, s));
    }
  }

  /** bruteForce / createSquarePolygons: one column of squares per step of x, in column order. */
  method BruteForce(poly: Polygon, squareSize: real) returns (squares: seq<Polygon>)
    requires squareSize > 0.0
    ensures squares == GridScan(poly, squareSize)
  {
    OverlapTestExists(poly);
    ghost var keep :| AgreesWithOverlap(keep, poly);
    var bounds := GetBoundingBox(poly);
    if bounds.None? {
      // the loops over an empty box run zero times
      GridScanWith(poly, squareSize, keep);
      return [];
    }
    var b := bounds.value;
    var s := squareSize;
    ghost var m := StepCount(b.minX, b.maxX, s);
    ghost var n := StepCount(b.minY, b.maxY, s);
    squares := [];
    var x, i := b.minX, 0;
    while x < b.maxX
      invariant 0 <= i <= m && x == StepAt(b.minX, s, i)
      invariant squares == Cells(keep, b.minX, b.minY, s, i, n)
      decreases m - i
    {
      var col := ScanColumn(poly, keep, x, b.minY, b.maxY, s);
      assert Cells(keep, b.minX, b.minY, s, i + 1, n) == Cells(keep, b.minX, b.minY, s, i, n) + col;
      squares := squares + col;
      StepNext(b.minX, s, i);
      x, i := x + s, i + 1;
    }
    assert i == m;
    GridScanWith(poly, squareSize, keep);
  }

  /** The cell is the square at a grid point (x0 + i*s, y0 + j*s) with i < m and j < n. */
  predicate OnGrid(c: Polygon, x0: real, y0: real, s: real, m: nat, n: nat)
  {
    exists i: nat, j: nat :: i < m && j < n && c == Square(StepAt(x0, s, i), StepAt(y0, s, j), s)
  }

  /** Every cell of a column passes the test and is the square at (x, y0 + j*s) for a row j < n. */
  lemma {:induction false} ColumnSound(keep: Polygon -> bool, x: real, y0: real, s: real, n: nat)
    ensures |Column(keep, x, y0, s, n)| <= n
    ensures forall p :: 0 <= p < |Column(keep, x, y0, s, n)| ==>
              keep(Column(keep, x, y0, s, n)[p]) &&
              exists j: nat :: j < n && Column(keep, x, y0, s, n)[p] == Square(x, StepAt(y0, s, j), s)
  {
    if n > 0 {
      ColumnSound(keep, x, y0, s, n - 1);
      var col := Column(keep, x, y0, s, n);
      var before := Column(keep, x, y0, s, n - 1);
      forall p | 0 <= p < |col|
        ensures keep(col[p]) && exists j: nat :: j < n && col[p] == Square(x, StepAt(y0, s, j), s)
      {
        if p < |before| {
          assert col[p] == before[p];
        } else {
          assert col[p] == Square(x, StepAt(y0, s, n - 1), s);
        }
      }
    }
  }

  /** Cells of one column come in strictly increasing row order. */
  lemma {:induction false} ColumnOrdered(keep: Polygon -> bool, x: real, y0: real, s: real, n: nat)
    requires s > 0.0
    ensures forall p, q :: 0 <= p < q < |Column(keep, x, y0, s, n)| ==>
              |Column(keep, x, y0, s, n)[p]| == 4 && |Column(keep, x, y0, s, n)[q]| == 4 &&
              Column(keep, x, y0, s, n)[p][0].y < Column(keep, x, y0, s, n)[q][0].y
  {
    if n > 0 {
      ColumnOrdered(keep, x, y0, s, n - 1);
      ColumnSound(keep, x, y0, s, n - 1);
      var col: seq<Polygon> := Column(keep, x, y0, s, n);
      var before := Column(keep, x, y0, s, n - 1);
      forall p, q | 0 <= p < q < |col|
        ensures |col[p]| == 4 && |col[q]| == 4 && col[p][0].y < col[q][0].y
      {
        assert col[p] == before[p];
        if q < |before| {
          assert col[q] == before[q];
        } else {
          assert col[q] == Square(x, StepAt(y0, s, n - 1), s);
          var j: nat :| j < n - 1 && before[p] == Square(x, StepAt(y0, s, j), s);
          StepAtLess(y0, s, j, n - 1);
        }
      }
      assert forall p, q :: 0 <= p < q < |col| ==> |col[p]| == 4 && |col[q]| == 4 && col[p][0].y < col[q][0].y;
    } else {
      assert Column(keep, x, y0, s, n) == [];
    }
  }

  lemma MulSucc(a: nat, b: nat)
    ensures (a + 1) * b == a * b + b
  {
  }

  /** Every cell passes the test and is the square at a grid point of the first m columns
      and n rows; there are at most m * n of them. */
  lemma {:induction false} CellsSound(keep: Polygon -> bool, x0: real, y0: real, s: real, m: nat, n: nat)
    ensures |Cells(keep, x0, y0, s, m, n)| <= m * n
    ensures forall p :: 0 <= p < |Cells(keep, x0, y0, s, m, n)| ==>
              keep(Cells(keep, x0, y0, s, m, n)[p]) && OnGrid(Cells(keep, x0, y0, s, m, n)[p], x0, y0, s, m, n)
  {
    if m > 0 {
      var x := StepAt(x0, s, m - 1);
      CellsSound(keep, x0, y0, s, m - 1, n);
      ColumnSound(keep, x, y0, s, n);
      MulSucc(m - 1, n);
      var cells := Cells(keep, x0, y0, s, m, n);
      var before := Cells(keep, x0, y0, s, m - 1, n);
      var col := Column(keep, x, y0, s, n);
      forall p | 0 <= p < |cells|
        ensures keep(cells[p]) && OnGrid(cells[p], x0, y0, s, m, n)
      {
        if p < |before| {
          assert cells[p] == before[p];
          var i: nat, j: nat :| i < m - 1 && j < n && before[p] == Square(StepAt(x0, s, i), StepAt(y0, s, j), s);
        } else {
          assert cells[p] == col[p - |before|];
          var j: nat :| j < n && col[p - |before|] == Square(x, StepAt(y0, s, j), s);
        }
      }
    }
  }

  /** p comes before q in x-major order. */
  predicate Before(p: Point, q: Point)
  {
    p.x < q.x || (p.x == q.x && p.y < q.y)
  }

  /** Every cell of the first m columns lies strictly left of column m. */
  lemma CellsLeftOf(keep: Polygon -> bool, x0: real, y0: real, s: real, m: nat, n: nat)
    requires s > 0.0
    ensures forall p :: 0 <= p < |Cells(keep, x0, y0, s, m, n)| ==>
              |Cells(keep, x0, y0, s, m, n)[p]| == 4 && Cells(keep, x0, y0, s, m, n)[p][0].x < StepAt(x0, s, m)
  {
    CellsSound(keep, x0, y0, s, m, n);
    var cells: seq<Polygon> := Cells(keep, x0, y0, s, m, n);
    forall p | 0 <= p < |cells|
      ensures |cells[p]| == 4 && cells[p][0].x < StepAt(x0, s, m)
    {
      var i: nat, j: nat :| i < m && j < n && cells[p] == Square(StepAt(x0, s, i), StepAt(y0, s, j), s);
      StepAtLess(x0, s, i, m);
    }
  }

  /** The cells come in strictly increasing x-major order of their origins. */
  lemma {:induction false} CellsOrdered(keep: Polygon -> bool, x0: real, y0: real, s: real, m: nat, n: nat)
    requires s > 0.0
    ensures forall p, q :: 0 <= p < q < |Cells(keep, x0, y0, s, m, n)| ==>
              |Cells(keep, x0, y0, s, m, n)[p]| == 4 && |Cells(keep, x0, y0, s, m, n)[q]| == 4 &&
              Before(Cells(keep, x0, y0, s, m, n)[p][0], Cells(keep, x0, y0, s, m, n)[q][0])
  {
    if m > 0 {
      var x := StepAt(x0, s, m - 1);
      CellsOrdered(keep, x0, y0, s, m - 1, n);
      CellsLeftOf(keep, x0, y0, s, m - 1, n);
      ColumnSound(keep, x, y0, s, n);
      ColumnOrdered(keep, x, y0, s, n);
      var cells: seq<Polygon> := Cells(keep, x0, y0, s, m, n);
      var before: seq<Polygon> := Cells(keep, x0, y0, s, m - 1, n);
      var col: seq<Polygon> := Column(keep, x, y0, s, n);
      forall p, q | 0 <= p < q < |cells|
        ensures |cells[p]| == 4 && |cells[q]| == 4 && Before(cells[p][0], cells[q][0])
      {
        if q < |before| {
          assert cells[p] == before[p] && cells[q] == before[q];
        } else if p >= |before| {
          assert cells[p] == col[p - |before|] && cells[q] == col[q - |before|];
        } else {
          assert cells[p] == before[p] && cells[q] == col[q - |before|];
          var j: nat :| j < n && col[q - |before|] == Square(x, StepAt(y0, s, j), s);
        }
      }
      assert forall p, q :: 0 <= p < q < |cells| ==> |cells[p]| == 4 && |cells[q]| == 4 && Before(cells[p][0], cells[q][0]);
    } else {
      assert Cells(keep, x0, y0, s, m, n) == [];
    }
  }

  /** The grid scan's promises: each cell is an s-by-s square that overlaps the polygon, its
      origin (minX + i*s, minY + j*s) lies on the grid strictly below (maxX, maxY), cells come in
      strictly increasing x-major order, there are at most as many as grid cells, and a polygon
      without points yields none. */
  lemma GridScanSound(poly: Polygon, s: real)
    requires s > 0.0
    ensures poly == [] ==> GridScan(poly, s) == []
    ensures poly != [] ==>
              var b := BoundingBox(poly).value;
              |GridScan(poly, s)| <= StepCount(b.minX, b.maxX, s) * StepCount(b.minY, b.maxY, s)
    ensures forall c :: c in GridScan(poly, s) ==>
              && Overlaps(c, poly)
              && var b := BoundingBox(poly).value;
                 exists i: nat, j: nat ::
                   && c == Square(StepAt(b.minX, s, i), StepAt(b.minY, s, j), s)
                   && StepAt(b.minX, s, i) < b.maxX && StepAt(b.minY, s, j) < b.maxY
    ensures forall p, q :: 0 <= p < q < |GridScan(poly, s)| ==>
              |GridScan(poly, s)[p]| == 4 && |GridScan(poly, s)[q]| == 4 &&
              Before(GridScan(poly, s)[p][0], GridScan(poly, s)[q][0])
  {
    if poly != [] {
      var b := BoundingBox(poly).value;
      var m := StepCount(b.minX, b.maxX, s);
      var n := StepCount(b.minY, b.maxY, s);
      var cells := Cells(OverlapTest(poly), b.minX, b.minY, s, m, n);
      assert GridScan(poly, s) == cells;
      CellsSound(OverlapTest(poly), b.minX, b.minY, s, m, n);
      CellsOrdered(OverlapTest(poly), b.minX, b.minY, s, m, n);
      forall c | c in cells
        ensures Overlaps(c, poly)
        ensures exists i: nat, j: nat ::
                   && c == Square(StepAt(b.minX, s, i), StepAt(b.minY, s, j), s)
                   && StepAt(b.minX, s, i) < b.maxX && StepAt(b.minY, s, j) < b.maxY
      {
        var p :| 0 <= p < |cells| && cells[p] == c;
        assert OnGrid(c, b.minX, b.minY, s, m, n);
        var i: nat, j: nat :| i < m && j < n && c == Square(StepAt(b.minX, s, i), StepAt(b.minY, s, j), s);
      }
    }
  }

  /** Two grid squares whose lower-left corners come in scan order share no interior. */
  lemma GridPairSeparated(c: Polygon, d: Polygon, x0: real, y0: real, s: real, m: nat, n: nat)
    requires s > 0.0 && OnGrid(c, x0, y0, s, m, n) && OnGrid(d, x0, y0, s, m, n) && Before(c[0], d[0])
    ensures Separated(c, d)
  {
    var i1: nat, j1: nat :| i1 < m && j1 < n && c == Square(StepAt(x0, s, i1), StepAt(y0, s, j1), s);
    var i2: nat, j2: nat :| i2 < m && j2 < n && d == Square(StepAt(x0, s, i2), StepAt(y0, s, j2), s);
    StepAtOrder(x0, s, i1, i2);
    StepAtOrder(y0, s, j1, j2);
    if i1 < i2 {
      StepAtGap(x0, s, i1, i2);
    } else {
      StepAtGap(y0, s, j1, j2);
    }
  }

  /** The cells of the first m columns share no interior, whatever the test. */
  lemma CellsSeparated(keep: Polygon -> bool, x0: real, y0: real, s: real, m: nat, n: nat)
    requires s > 0.0
    ensures PairwiseSeparated(Cells(keep, x0, y0, s, m, n))
  {
    var cells := Cells(keep, x0, y0, s, m, n);
    CellsSound(keep, x0, y0, s, m, n);
    CellsOrdered(keep, x0, y0, s, m, n);
    forall p, q | 0 <= p < q < |cells|
      ensures Separated(cells[p], cells[q])
    {
      GridPairSeparated(cells[p], cells[q], x0, y0, s, m, n);
    }
  }

  /** No two squares of the grid scan share interior: squares in different columns lie a
      whole step apart in x, and squares of one column a whole step apart in y. */
  lemma GridScanSeparated(poly: Polygon, s: real)
    requires s > 0.0
    ensures PairwiseSeparated(GridScan(poly, s))
  {
    if poly != [] {
      var b := BoundingBox(poly).value;
      CellsSeparated(OverlapTest(poly), b.minX, b.minY, s, StepCount(b.minX, b.maxX, s), StepCount(b.minY, b.maxY, s));
    } else {
      assert GridScan(poly, s) == [];
    }
  }
}

=== FILE: quadtree.dfy ===
/** The adaptive quadtree: the polygon's bounding box is split recursively into four
    quadrants; a quadrant that does not touch the polygon is dropped, one whose four corners
    are inside is kept whole, one at the depth or size limit is kept, any other is split. */
module Quadtree {
  import opened Geometry

  /** Rectangle: lower corner (x, y), width and height. */
  datatype Rect = Rect(x: real, y: real, width: real, height: real)
  {
    /** toAdaptedForm: the corners (x, y), (x + w, y), (x + w, y + h), (x, y + h). */
    function ToAdaptedForm(): Polygon
    {
      Corners(x, y, x + width, y + height)
    }

    /** The closed rectangle holds p. */
    predicate ContainsPoint(p: Point)
    {
      x <= p.x <= x + width && y <= p.y <= y + height
    }

    /** The segment p1-p2 meets one of the four sides (corner k to corner k + 1, wrapping),
        collinearity being decided by an exactly zero cross product. */
    predicate LineIntersectsRect(p1: Point, p2: Point)
    {
      exists k :: 0 <= k < 4 && LinesIntersect(p1, p2, ToAdaptedForm()[k], ToAdaptedForm()[Next(k, 4)])
    }

    /** What intersectsPolygon decides: the polygon has at least three points, and a vertex
        lies in the rectangle, or a corner lies in the polygon, or an edge meets a side. */
    predicate Touches(poly: Polygon)
    {
      && |poly| >= 3
      && (|| (exists i :: 0 <= i < |poly| && ContainsPoint(poly[i]))
          || (exists k :: 0 <= k < 4 && Inside(ToAdaptedForm()[k], poly))
          || (exists i :: 0 <= i < |poly| && LineIntersectsRect(poly[i], poly[Next(i, |poly|)])))
    }

    /** What isEntirelyInsidePolygon decides: at least three points, and all four corners inside. */
    predicate CoveredBy(poly: Polygon)
    {
      |poly| >= 3 && forall k :: 0 <= k < 4 ==> Inside(ToAdaptedForm()[k], poly)
    }

    /** lineIntersectsRectangle: the four sides tried in turn, returning at the first hit. */
    method LineIntersectsRectangle(p1: Point, p2: Point) returns (hit: bool)
      ensures hit <==> LineIntersectsRect(p1, p2)
    {
      var corners := ToAdaptedForm();
      for k := 0 to 4
        invariant forall c :: 0 <= c < k ==> !LinesIntersect(p1, p2, corners[c], corners[Next(c, 4)])
      {
        if LinesIntersect(p1, p2, corners[k], corners[(k + 1) % 4]) {
          assert LinesIntersect(p1, p2, ToAdaptedForm()[k], ToAdaptedForm()[Next(k, 4)]);
          return true;
        }
      }
      return false;
    }

    /** intersectsPolygon: the size guard, then the three loops with early returns. */
    method IntersectsPolygon(poly: Polygon) returns (touches: bool)
      ensures touches <==> Touches(poly)
    {
      if |poly| < 3 {
        return false;
      }
      for i := 0 to |poly|
        invariant forall c :: 0 <= c < i ==> !ContainsPoint(poly[c])
      {
        if ContainsPoint(poly[i]) {
          return true;
        }
      }
      var corners := ToAdaptedForm();
      for k := 0 to 4
        invariant forall c :: 0 <= c < k ==> !Inside(corners[c], poly)
      {
        var inside := PointInPolygon(corners[k], poly);
        if inside {
          assert Inside(ToAdaptedForm()[k], poly);
          return true;
        }
      }
      for i := 0 to |poly|
        invariant forall c :: 0 <= c < i ==> !LineIntersectsRect(poly[c], poly[Next(c, |poly|)])
      {
        var hit := LineIntersectsRectangle(poly[i], poly[(i + 1) % |poly|]);
        if hit {
          assert LineIntersectsRect(poly[i], poly[Next(i, |poly|)]);
          return true;
        }
      }
      return false;
    }

    /** isEntirelyInsidePolygon: the size guard, then every corner must pass the even-odd test. */
    method IsEntirelyInsidePolygon(poly: Polygon) returns (covered: bool)
      ensures covered <==> CoveredBy(poly)
    {
      if |poly| < 3 {
        return false;
      }
      var corners := ToAdaptedForm();
      for k := 0 to 4
        invariant forall c :: 0 <= c < k ==> Inside(corners[c], poly)
      {
        var inside := PointInPolygon(corners[k], poly);
        if !inside {
          return false;
        }
      }
      return true;
    }
  }

  /** Rectangle.linesIntersect: the orientation test with exact-zero collinearity. */
  predicate LinesIntersect(p1: Point, q1: Point, p2: Point, q2: Point)
  {
    SegmentsMeet(Exact, p1, q1, p2, q2)
  }

  /** Covering a rectangle implies touching it: a corner inside is one of the touching cases. */
  lemma CoveredTouches(r: Rect, poly: Polygon)
    requires r.CoveredBy(poly)
    ensures r.Touches(poly)
  {
    assert Inside(r.ToAdaptedForm()[0], poly);
  }

  // ---------------------------------------------------------------------------------------
  // Quadrants

  /** a lies inside b. */
  predicate Within(a: Rect, b: Rect)
  {
    b.x <= a.x && a.x + a.width <= b.x + b.width && b.y <= a.y && a.y + a.height <= b.y + b.height
  }

  /** a and b are separated by a vertical or a horizontal line, so their interiors are disjoint. */
  predicate Apart(a: Rect, b: Rect)
  {
    a.x + a.width <= b.x || b.x + b.width <= a.x || a.y + a.height <= b.y || b.y + b.height <= a.y
  }

  /** The four children in the order generateRectangles visits them: lower left, lower right,
      upper left, upper right. */
  function Quadrants(b: Rect): (qs: seq<Rect>)
    ensures |qs| == 4
  {
    var hw := b.width / 2.0;
    var hh := b.height / 2.0;
    [Rect(b.x, b.y, hw, hh), Rect(b.x + hw, b.y, hw, hh), Rect(b.x, b.y + hh, hw, hh), Rect(b.x + hw, b.y + hh, hw, hh)]
  }

  /** The quadrants have half the parent's width and height, lie inside it, have pairwise
      disjoint interiors, and together cover it. */
  lemma QuadrantsTile(b: Rect)
    requires b.width >= 0.0 && b.height >= 0.0
    ensures forall k :: 0 <= k < 4 ==>
              && Quadrants(b)[k].width == b.width / 2.0
              && Quadrants(b)[k].height == b.height / 2.0
              && Within(Quadrants(b)[k], b)
    ensures forall k, l :: 0 <= k < l < 4 ==> Apart(Quadrants(b)[k], Quadrants(b)[l])
    ensures forall p :: b.ContainsPoint(p) ==> exists k :: 0 <= k < 4 && Quadrants(b)[k].ContainsPoint(p)
  {
    var qs := Quadrants(b);
    forall p | b.ContainsPoint(p)
      ensures exists k :: 0 <= k < 4 && qs[k].ContainsPoint(p)
    {
      var right := if p.x <= b.x + b.width / 2.0 then 0 else 1;
      var up := if p.y <= b.y + b.height / 2.0 then 0 else 2;
      assert qs[right + up].ContainsPoint(p);
    }
  }

  // ---------------------------------------------------------------------------------------
  // What generateRectangles emits

  /** The size restriction: the depth limit is reached or a side is at most minSize. */
  predicate AtLimit(b: Rect, depth: int, maxDepth: int, minSize: real)
  {
    depth >= maxDepth || b.width <= minSize || b.height <= minSize
  }

  /** The rectangles generateRectangles appends for the quadrant b at the given depth, in order. */
  function Leaves(b: Rect, poly: Polygon, depth: int, maxDepth: int, minSize: real): seq<Rect>
    decreases LevelsLeft(depth, maxDepth), 1
  {
    if !b.Touches(poly) then []
    else if b.CoveredBy(poly) then [b]
    else if AtLimit(b, depth, maxDepth, minSize) then (if b.Touches(poly) then [b] else [])
    else LeavesUpTo(Quadrants(b), poly, depth + 1, maxDepth, minSize, 4)
  }

  /** The leaves of the first k children qs[0..k), all at the given depth. */
  function LeavesUpTo(qs: seq<Rect>, poly: Polygon, depth: int, maxDepth: int, minSize: real, k: nat): seq<Rect>
    requires k <= |qs|
    decreases LevelsLeft(depth, maxDepth) + 1, 0, k
  {
    if k == 0 then []
    else LeavesUpTo(qs, poly, depth, maxDepth, minSize, k - 1) + Leaves(qs[k - 1], poly, depth, maxDepth, minSize)
  }

  function IntMax(a: int, b: int): int { if a <= b then b else a }

  /** The deepest depth at which generateRectangles is entered below (and at) the quadrant b. */
  function Reached(b: Rect, poly: Polygon, depth: int, maxDepth: int, minSize: real): int
    decreases LevelsLeft(depth, maxDepth), 1
  {
    if !b.Touches(poly) || b.CoveredBy(poly) || AtLimit(b, depth, maxDepth, minSize) then depth
    else ReachedUpTo(Quadrants(b), poly, depth + 1, maxDepth, minSize, 4, depth)
  }

  /** acc combined with the deepest depths of the first k children. */
  function ReachedUpTo(qs: seq<Rect>, poly: Polygon, depth: int, maxDepth: int, minSize: real, k: nat, acc: int): int
    requires k <= |qs|
    decreases LevelsLeft(depth, maxDepth) + 1, 0, k
  {
    if k == 0 then acc
    else IntMax(ReachedUpTo(qs, poly, depth, maxDepth, minSize, k - 1, acc), Reached(qs[k - 1], poly, depth, maxDepth, minSize))
  }

  /** Folding in child k after the first k. */
  lemma UpToNext(qs: seq<Rect>, poly: Polygon, depth: int, maxDepth: int, minSize: real, k: nat, acc: int)
    requires k < |qs|
    ensures LeavesUpTo(qs, poly, depth, maxDepth, minSize, k + 1)
         == LeavesUpTo(qs, poly, depth, maxDepth, minSize, k) + Leaves(qs[k], poly, depth, maxDepth, minSize)
    ensures ReachedUpTo(qs, poly, depth, maxDepth, minSize, k + 1, acc)
         == IntMax(ReachedUpTo(qs, poly, depth, maxDepth, minSize, k, acc), Reached(qs[k], poly, depth, maxDepth, minSize))
  {
  }

  /** A node that splits emits its four children's leaves one after another, and the deepest
      depth it enters folds its own depth with its children's, in the order they are visited. */
  lemma LeavesSplit(b: Rect, poly: Polygon, depth: int, maxDepth: int, minSize: real)
    requires b.Touches(poly) && !b.CoveredBy(poly) && !AtLimit(b, depth, maxDepth, minSize)
    ensures Leaves(b, poly, depth, maxDepth, minSize)
         == Leaves(Quadrants(b)[0], poly, depth + 1, maxDepth, minSize) + Leaves(Quadrants(b)[1], poly, depth + 1, maxDepth, minSize)
          + Leaves(Quadrants(b)[2], poly, depth + 1, maxDepth, minSize) + Leaves(Quadrants(b)[3], poly, depth + 1, maxDepth, minSize)
    ensures Reached(b, poly, depth, maxDepth, minSize)
         == IntMax(IntMax(IntMax(IntMax(depth, Reached(Quadrants(b)[0], poly, depth + 1, maxDepth, minSize)),
                                        Reached(Quadrants(b)[1], poly, depth + 1, maxDepth, minSize)),
                                 Reached(Quadrants(b)[2], poly, depth + 1, maxDepth, minSize)),
                          Reached(Quadrants(b)[3], poly, depth + 1, maxDepth, minSize))
  {
    var qs := Quadrants(b);
    var d := depth + 1;
    assert Leaves(b, poly, depth, maxDepth, minSize) == LeavesUpTo(qs, poly, d, maxDepth, minSize, 4);
    assert Reached(b, poly, depth, maxDepth, minSize) == ReachedUpTo(qs, poly, d, maxDepth, minSize, 4, depth);
    assert LeavesUpTo(qs, poly, d, maxDepth, minSize, 0) == [];
    UpToNext(qs, poly, d, maxDepth, minSize, 0, depth);
    UpToNext(qs, poly, d, maxDepth, minSize, 1, depth);
    UpToNext(qs, poly, d, maxDepth, minSize, 2, depth);
    UpToNext(qs, poly, d, maxDepth, minSize, 3, depth);
    assert [] + Leaves(qs[0], poly, d, maxDepth, minSize) == Leaves(qs[0], poly, d, maxDepth, minSize);
  }

  /** Folding the children's depths into max(a, b) is max(a, folding them into b). */
  lemma {:induction false} ReachedUpToAcc(qs: seq<Rect>, poly: Polygon, depth: int, maxDepth: int, minSize: real, k: nat, a: int, b: int)
    requires k <= |qs|
    ensures ReachedUpTo(qs, poly, depth, maxDepth, minSize, k, IntMax(a, b)) == IntMax(a, ReachedUpTo(qs, poly, depth, maxDepth, minSize, k, b))
  {
    if k > 0 {
      ReachedUpToAcc(qs, poly, depth, maxDepth, minSize, k - 1, a, b);
    }
  }

  /** Every emitted rectangle touches the polygon: both places that emit come after the test
      that drops non-touching quadrants, so the second test before the size-limited emission
      always passes. */
  lemma {:induction false} LeavesTouch(b: Rect, poly: Polygon, depth: int, maxDepth: int, minSize: real)
    ensures forall r :: r in Leaves(b, poly, depth, maxDepth, minSize) ==> r.Touches(poly)
    ensures b.Touches(poly) && !b.CoveredBy(poly) && AtLimit(b, depth, maxDepth, minSize) ==>
              Leaves(b, poly, depth, maxDepth, minSize) == [b]
    decreases maxDepth - depth
  {
    if b.Touches(poly) && !b.CoveredBy(poly) && !AtLimit(b, depth, maxDepth, minSize) {
      var qs := Quadrants(b);
      LeavesTouch(qs[0], poly, depth + 1, maxDepth, minSize);
      LeavesTouch(qs[1], poly, depth + 1, maxDepth, minSize);
      LeavesTouch(qs[2], poly, depth + 1, maxDepth, minSize);
      LeavesTouch(qs[3], poly, depth + 1, maxDepth, minSize);
      LeavesSplit(b, poly, depth, maxDepth, minSize);
    }
  }

  /** With fewer than three points nothing touches the polygon: nothing is emitted and no
      node splits. */
  lemma FewPointsNothing(b: Rect, poly: Polygon, depth: int, maxDepth: int, minSize: real)
    requires |poly| < 3
    ensures Leaves(b, poly, depth, maxDepth, minSize) == []
    ensures Reached(b, poly, depth, maxDepth, minSize) == depth
  {
  }

  function Pow4(n: nat): nat
  {
    if n == 0 then 1 else 4 * Pow4(n - 1)
  }

  /** The number of levels still allowed below the given depth. */
  function LevelsLeft(depth: int, maxDepth: int): nat
  {
    if depth < maxDepth then maxDepth - depth else 0
  }

  /** A quadrant with k levels left below it emits at most 4^k rectangles. */
  lemma {:induction false} LeavesCount(b: Rect, poly: Polygon, depth: int, maxDepth: int, minSize: real)
    ensures |Leaves(b, poly, depth, maxDepth, minSize)| <= Pow4(LevelsLeft(depth, maxDepth))
    decreases maxDepth - depth
  {
    if b.Touches(poly) && !b.CoveredBy(poly) && !AtLimit(b, depth, maxDepth, minSize) {
      var qs := Quadrants(b);
      var d := depth + 1;
      var l0, l1, l2, l3 := Leaves(qs[0], poly, d, maxDepth, minSize), Leaves(qs[1], poly, d, maxDepth, minSize),
                            Leaves(qs[2], poly, d, maxDepth, minSize), Leaves(qs[3], poly, d, maxDepth, minSize);
      LeavesSplit(b, poly, depth, maxDepth, minSize);
      LeavesCount(qs[0], poly, d, maxDepth, minSize);
      LeavesCount(qs[1], poly, d, maxDepth, minSize);
      LeavesCount(qs[2], poly, d, maxDepth, minSize);
      LeavesCount(qs[3], poly, d, maxDepth, minSize);
      CountFour(l0, l1, l2, l3, LevelsLeft(d, maxDepth));
      assert LevelsLeft(depth, maxDepth) == LevelsLeft(d, maxDepth) + 1;
    } else {
      PowPositive(LevelsLeft(depth, maxDepth));
    }
  }

  /** Four lists of at most 4^n rectangles hold at most 4^(n+1) together. */
  lemma CountFour(l0: seq<Rect>, l1: seq<Rect>, l2: seq<Rect>, l3: seq<Rect>, n: nat)
    requires |l0| <= Pow4(n) && |l1| <= Pow4(n) && |l2| <= Pow4(n) && |l3| <= Pow4(n)
    ensures |l0 + l1 + l2 + l3| <= Pow4(n + 1)
  {
  }

  lemma {:induction false} PowPositive(n: nat)
    ensures Pow4(n) >= 1
  {
    if n > 0 {
      PowPositive(n - 1);
    }
  }

  /** Every rectangle of the list lies inside q and has no negative side. */
  predicate AllWithin(rs: seq<Rect>, q: Rect)
  {
    forall k :: 0 <= k < |rs| ==> Within(rs[k], q) && rs[k].width >= 0.0 && rs[k].height >= 0.0
  }

  /** The rectangles of the list have pairwise disjoint interiors. */
  predicate PairwiseApart(rs: seq<Rect>)
  {
    forall k, l :: 0 <= k < l < |rs| ==> Apart(rs[k], rs[l])
  }

  /** Two lists without internal overlap, every member of the first apart from every member
      of the second, have no overlap together. */
  lemma ApartConcat(xs: seq<Rect>, ys: seq<Rect>)
    requires PairwiseApart(xs) && PairwiseApart(ys)
    requires forall k, l :: 0 <= k < |xs| && 0 <= l < |ys| ==> Apart(xs[k], ys[l])
    ensures PairwiseApart(xs + ys)
  {
    var zs := xs + ys;
    forall k, l | 0 <= k < l < |zs|
      ensures Apart(zs[k], zs[l])
    {
      if l < |xs| {
        assert zs[k] == xs[k] && zs[l] == xs[l];
      } else if k < |xs| {
        assert zs[k] == xs[k] && zs[l] == ys[l - |xs|];
      } else {
        assert zs[k] == ys[k - |xs|] && zs[l] == ys[l - |xs|];
      }
    }
  }

  /** Rectangles inside q lie inside every rectangle holding q. */
  lemma WithinWiden(xs: seq<Rect>, q: Rect, b: Rect)
    requires AllWithin(xs, q) && Within(q, b)
    ensures AllWithin(xs, b)
  {
  }

  lemma WithinConcat(xs: seq<Rect>, ys: seq<Rect>, b: Rect)
    requires AllWithin(xs, b) && AllWithin(ys, b)
    ensures AllWithin(xs + ys, b)
  {
    var zs := xs + ys;
    forall k | 0 <= k < |zs|
      ensures Within(zs[k], b) && zs[k].width >= 0.0 && zs[k].height >= 0.0
    {
      if k < |xs| {
        assert zs[k] == xs[k];
      } else {
        assert zs[k] == ys[k - |xs|];
      }
    }
  }

  /** Rectangles inside two quadrants that are apart are apart themselves. */
  lemma WithinApart(xs: seq<Rect>, qx: Rect, ys: seq<Rect>, qy: Rect)
    requires AllWithin(xs, qx) && AllWithin(ys, qy) && Apart(qx, qy)
    ensures forall k, l :: 0 <= k < |xs| && 0 <= l < |ys| ==> Apart(xs[k], ys[l])
  {
  }

  /** The leaves of four quadrants inside b, joined, lie inside b. */
  lemma WithinFour(l0: seq<Rect>, l1: seq<Rect>, l2: seq<Rect>, l3: seq<Rect>, qs: seq<Rect>, b: Rect)
    requires |qs| == 4 && forall k :: 0 <= k < 4 ==> Within(qs[k], b)
    requires AllWithin(l0, qs[0]) && AllWithin(l1, qs[1]) && AllWithin(l2, qs[2]) && AllWithin(l3, qs[3])
    ensures AllWithin(l0 + l1 + l2 + l3, b)
  {
    WithinWiden(l0, qs[0], b);
    WithinWiden(l1, qs[1], b);
    WithinWiden(l2, qs[2], b);
    WithinWiden(l3, qs[3], b);
    WithinConcat(l0, l1, b);
    WithinConcat(l0 + l1, l2, b);
    WithinConcat(l0 + l1 + l2, l3, b);
  }

  /** The leaves of four pairwise apart quadrants, each without overlap, have no overlap
      joined. */
  lemma ApartFour(l0: seq<Rect>, l1: seq<Rect>, l2: seq<Rect>, l3: seq<Rect>, qs: seq<Rect>)
    requires |qs| == 4 && forall k, l :: 0 <= k < l < 4 ==> Apart(qs[k], qs[l])
    requires AllWithin(l0, qs[0]) && AllWithin(l1, qs[1]) && AllWithin(l2, qs[2]) && AllWithin(l3, qs[3])
    requires PairwiseApart(l0) && PairwiseApart(l1) && PairwiseApart(l2) && PairwiseApart(l3)
    ensures PairwiseApart(l0 + l1 + l2 + l3)
  {
    assert Apart(qs[0], qs[1]) && Apart(qs[0], qs[2]) && Apart(qs[0], qs[3]);
    assert Apart(qs[1], qs[2]) && Apart(qs[1], qs[3]) && Apart(qs[2], qs[3]);
    WithinApart(l0, qs[0], l1, qs[1]);
    ApartConcat(l0, l1);
    WithinApart(l0, qs[0], l2, qs[2]);
    WithinApart(l1, qs[1], l2, qs[2]);
    ApartConcat(l0 + l1, l2);
    WithinApart(l0, qs[0], l3, qs[3]);
    WithinApart(l1, qs[1], l3, qs[3]);
    WithinApart(l2, qs[2], l3, qs[3]);
    ApartConcat(l0 + l1 + l2, l3);
  }

  /** The emitted rectangles of a quadrant with no negative side lie inside it and keep
      non-negative sides. */
  lemma {:induction false} LeavesWithin(b: Rect, poly: Polygon, depth: int, maxDepth: int, minSize: real)
    requires b.width >= 0.0 && b.height >= 0.0
    ensures AllWithin(Leaves(b, poly, depth, maxDepth, minSize), b)
    decreases maxDepth - depth
  {
    if b.Touches(poly) && !b.CoveredBy(poly) && !AtLimit(b, depth, maxDepth, minSize) {
      var qs := Quadrants(b);
      var d := depth + 1;
      QuadrantsTile(b);
      var l0, l1, l2, l3 := Leaves(qs[0], poly, d, maxDepth, minSize), Leaves(qs[1], poly, d, maxDepth, minSize),
                            Leaves(qs[2], poly, d, maxDepth, minSize), Leaves(qs[3], poly, d, maxDepth, minSize);
      LeavesSplit(b, poly, depth, maxDepth, minSize);
      LeavesWithin(qs[0], poly, d, maxDepth, minSize);
      LeavesWithin(qs[1], poly, d, maxDepth, minSize);
      LeavesWithin(qs[2], poly, d, maxDepth, minSize);
      LeavesWithin(qs[3], poly, d, maxDepth, minSize);
      WithinFour(l0, l1, l2, l3, qs, b);
    }
  }

  /** The emitted rectangles of a quadrant with no negative side have pairwise disjoint
      interiors. */
  lemma {:induction false} LeavesApart(b: Rect, poly: Polygon, depth: int, maxDepth: int, minSize: real)
    requires b.width >= 0.0 && b.height >= 0.0
    ensures PairwiseApart(Leaves(b, poly, depth, maxDepth, minSize))
    decreases maxDepth - depth
  {
    if b.Touches(poly) && !b.CoveredBy(poly) && !AtLimit(b, depth, maxDepth, minSize) {
      var qs := Quadrants(b);
      var d := depth + 1;
      QuadrantsTile(b);
      var l0, l1, l2, l3 := Leaves(qs[0], poly, d, maxDepth, minSize), Leaves(qs[1], poly, d, maxDepth, minSize),
                            Leaves(qs[2], poly, d, maxDepth, minSize), Leaves(qs[3], poly, d, maxDepth, minSize);
      LeavesSplit(b, poly, depth, maxDepth, minSize);
      LeavesWithin(qs[0], poly, d, maxDepth, minSize);
      LeavesWithin(qs[1], poly, d, maxDepth, minSize);
      LeavesWithin(qs[2], poly, d, maxDepth, minSize);
      LeavesWithin(qs[3], poly, d, maxDepth, minSize);
      LeavesApart(qs[0], poly, d, maxDepth, minSize);
      LeavesApart(qs[1], poly, d, maxDepth, minSize);
      LeavesApart(qs[2], poly, d, maxDepth, minSize);
      LeavesApart(qs[3], poly, d, maxDepth, minSize);
      ApartFour(l0, l1, l2, l3, qs);
    }
  }

  /** The deepest depth entered is never below the node's own depth and never beyond the
      larger of that depth and maxDepth. */
  lemma {:induction false} ReachedBounds(b: Rect, poly: Polygon, depth: int, maxDepth: int, minSize: real)
    ensures depth <= Reached(b, poly, depth, maxDepth, minSize) <= IntMax(depth, maxDepth)
    decreases maxDepth - depth
  {
    if b.Touches(poly) && !b.CoveredBy(poly) && !AtLimit(b, depth, maxDepth, minSize) {
      var qs := Quadrants(b);
      var d := depth + 1;
      ReachedBounds(qs[0], poly, d, maxDepth, minSize);
      ReachedBounds(qs[1], poly, d, maxDepth, minSize);
      ReachedBounds(qs[2], poly, d, maxDepth, minSize);
      ReachedBounds(qs[3], poly, d, maxDepth, minSize);
      var r0, r1, r2, r3 := Reached(qs[0], poly, d, maxDepth, minSize), Reached(qs[1], poly, d, maxDepth, minSize),
                            Reached(qs[2], poly, d, maxDepth, minSize), Reached(qs[3], poly, d, maxDepth, minSize);
      LeavesSplit(b, poly, depth, maxDepth, minSize);
      assert d <= maxDepth && IntMax(d, maxDepth) == maxDepth;
      assert r0 <= maxDepth && r1 <= maxDepth && r2 <= maxDepth && r3 <= maxDepth;
    } else {
      assert Reached(b, poly, depth, maxDepth, minSize) == depth;
    }
  }

  /** The limits a QuadTree gets when its constructor is called without them. */
  const DefaultMaxDepth: int := 6
  const DefaultMinSize: real := 10.0

  /** A quadtree node: its quadrant, the limits, and the rectangles and deepest depth it has
      collected so far. */
  class QuadTree {
    const bounds: Rect
    const maxDepth: int
    const minSize: real
    var rectangles: seq<Rect>
    var maxDepthReached: int

    constructor (bounds: Rect, maxDepth: int := DefaultMaxDepth, minSize: real := DefaultMinSize)
      ensures this.bounds == bounds && this.maxDepth == maxDepth && this.minSize == minSize
      ensures rectangles == [] && maxDepthReached == 0
    {
      this.bounds := bounds;
      this.maxDepth := maxDepth;
      this.minSize := minSize;
      rectangles := [];
      maxDepthReached := 0;
    }

    /** generateRectangles: appends the leaves of this quadrant and records the deepest depth
        entered. Each level adds one to the depth and no node splits at or past maxDepth. */
    method GenerateRectangles(poly: Polygon, depth: int := 0)
      requires 0 <= depth
      modifies this
      ensures rectangles == old(rectangles) + Leaves(bounds, poly, depth, maxDepth, minSize)
      ensures maxDepthReached == IntMax(old(maxDepthReached), Reached(bounds, poly, depth, maxDepth, minSize))
      decreases maxDepth - depth, 2
    {
      maxDepthReached := IntMax(maxDepthReached, depth);
      var touches := bounds.IntersectsPolygon(poly);
      if !touches {
        return;
      }
      var covered := bounds.IsEntirelyInsidePolygon(poly);
      if covered {
        rectangles := rectangles + [bounds];
        return;
      }
      if depth >= maxDepth || bounds.width <= minSize || bounds.height <= minSize {
        var again := bounds.IntersectsPolygon(poly);
        if again {
          rectangles := rectangles + [bounds];
        }
        return;
      }
      var halfWidth := bounds.width / 2.0;
      var halfHeight := bounds.height / 2.0;
      var quadrants := [
        Rect(bounds.x, bounds.y, halfWidth, halfHeight),
        Rect(bounds.x + halfWidth, bounds.y, halfWidth, halfHeight),
        Rect(bounds.x, bounds.y + halfHeight, halfWidth, halfHeight),
        Rect(bounds.x + halfWidth, bounds.y + halfHeight, halfWidth, halfHeight)
      ];
      assert quadrants == Quadrants(bounds);
      ReachedUpToAcc(quadrants, poly, depth + 1, maxDepth, minSize, 4, old(maxDepthReached), depth);
      GenerateChildren(poly, depth + 1, quadrants);
    }

    /** The `for (let quadrant of quadrants)` loop of generateRectangles: one child tree per
        quadrant at the next depth, its rectangles appended in order and its deepest depth
        folded in. */
    method GenerateChildren(poly: Polygon, depth: int, quadrants: seq<Rect>)
      requires 1 <= depth <= maxDepth && |quadrants| == 4
      modifies this
      ensures rectangles == old(rectangles) + LeavesUpTo(quadrants, poly, depth, maxDepth, minSize, 4)
      ensures maxDepthReached == ReachedUpTo(quadrants, poly, depth, maxDepth, minSize, 4, old(maxDepthReached))
      decreases maxDepth - depth + 1, 1
    {
      ghost var start, startReached := rectangles, maxDepthReached;
      for k := 0 to 4
        invariant rectangles == start + LeavesUpTo(quadrants, poly, depth, maxDepth, minSize, k)
        invariant maxDepthReached == ReachedUpTo(quadrants, poly, depth, maxDepth, minSize, k, startReached)
      {
        var childRectangles, childReached := Child(poly, depth, quadrants[k]);
        UpToNext(quadrants, poly, depth, maxDepth, minSize, k, startReached);
        rectangles := rectangles + childRectangles;
        maxDepthReached := IntMax(maxDepthReached, childReached);
      }
    }

    /** `new QuadTree(quadrant, this.maxDepth, this.minSize)` followed by its
        generateRectangles at the given depth: what the child collects and the deepest depth it
        enters. */
    method Child(poly: Polygon, depth: int, quadrant: Rect) returns (childRectangles: seq<Rect>, childReached: int)
      requires 1 <= depth <= maxDepth
      ensures childRectangles == Leaves(quadrant, poly, depth, maxDepth, minSize)
      ensures childReached == Reached(quadrant, poly, depth, maxDepth, minSize)
      decreases maxDepth - depth + 1, 0
    {
      var child := new QuadTree(quadrant, maxDepth, minSize);
      child.GenerateRectangles(poly, depth);
      ReachedBounds(quadrant, poly, depth, maxDepth, minSize);
      childRectangles := child.rectangles;
      childReached := child.maxDepthReached;
    }
  }

  /** The root quadrant: the bounding box as a rectangle. */
  function RootRect(b: Box): Rect
  {
    Rect(b.minX, b.minY, b.maxX - b.minX, b.maxY - b.minY)
  }

  /** Every rectangle in its four-corner form, in order: `rectangles.map((r) => r.toAdaptedForm())`. */
  function AdaptedForms(rs: seq<Rect>): (ps: seq<Polygon>)
    ensures |ps| == |rs| && forall k :: 0 <= k < |rs| ==> ps[k] == rs[k].ToAdaptedForm()
  {
    seq(|rs|, k requires 0 <= k < |rs| => rs[k].ToAdaptedForm())
  }

  /** The rectangles createQuadTree collects: the leaves of the root from depth 0, none for a
      polygon without points (it has fewer than three points). */
  function QuadTreeLeaves(poly: Polygon, maxDepth: int, minSize: real): seq<Rect>
  {
    match BoundingBox(poly)
    case None => []
    case Some(b) => Leaves(RootRect(b), poly, 0, maxDepth, minSize)
  }

  lemma RootLeaves(poly: Polygon, maxDepth: int, minSize: real)
    requires poly != []
    ensures QuadTreeLeaves(poly, maxDepth, minSize) == Leaves(RootRect(BoundingBox(poly).value), poly, 0, maxDepth, minSize)
  {
  }

  /** The promises of createQuadTree: fewer than three points give nothing; otherwise every
      rectangle touches the polygon, lies inside the bounding box, and no two overlap; and
      there are at most 4^maxDepth of them. */
  lemma QuadTreeSound(poly: Polygon, maxDepth: int, minSize: real)
    ensures |poly| < 3 ==> QuadTreeLeaves(poly, maxDepth, minSize) == []
    ensures |QuadTreeLeaves(poly, maxDepth, minSize)| <= Pow4(LevelsLeft(0, maxDepth))
    ensures forall r :: r in QuadTreeLeaves(poly, maxDepth, minSize) ==> r.Touches(poly)
    ensures poly != [] ==> AllWithin(QuadTreeLeaves(poly, maxDepth, minSize), RootRect(BoundingBox(poly).value))
    ensures PairwiseApart(QuadTreeLeaves(poly, maxDepth, minSize))
  {
    if poly != [] {
      var root := RootRect(BoundingBox(poly).value);
      assert QuadTreeLeaves(poly, maxDepth, minSize) == Leaves(root, poly, 0, maxDepth, minSize);
      if |poly| < 3 {
        FewPointsNothing(root, poly, 0, maxDepth, minSize);
      }
      LeavesCount(root, poly, 0, maxDepth, minSize);
      LeavesTouch(root, poly, 0, maxDepth, minSize);
      LeavesWithin(root, poly, 0, maxDepth, minSize);
      LeavesApart(root, poly, 0, maxDepth, minSize);
    } else {
      assert QuadTreeLeaves(poly, maxDepth, minSize) == [];
      PowPositive(LevelsLeft(0, maxDepth));
    }
  }

  /** createQuadTree: build the root node over the bounding box, run generateRectangles from
      depth 0 and convert every rectangle to its corners. */
  method CreateQuadTree(poly: Polygon, recursionLimit: int, minimumQuadSize: real) returns (cells: seq<Polygon>)
    ensures cells == AdaptedForms(QuadTreeLeaves(poly, recursionLimit, minimumQuadSize))
  {
    var bounds := GetBoundingBox(poly);
    if bounds.None? {
      // no points: intersectsPolygon rejects the root
      assert QuadTreeLeaves(poly, recursionLimit, minimumQuadSize) == [];
      return [];
    }
    var b := bounds.value;
    var rectBounds := Rect(b.minX, b.minY, b.maxX - b.minX, b.maxY - b.minY);
    var tree := new QuadTree(rectBounds, recursionLimit, minimumQuadSize);
    tree.GenerateRectangles(poly);
    assert rectBounds == RootRect(b);
    RootLeaves(poly, recursionLimit, minimumQuadSize);
    cells := AdaptedForms(tree.rectangles);
  }
}

=== FILE: reduce.dfy ===
/** The reduction pass: rectangles that share a whole edge exactly are merged greedily, a
    horizontal pass followed by a vertical pass, until a round no longer lowers the count. */
module Reduce {
  import opened Geometry
  import opened Quadtree

  // ---------------------------------------------------------------------------------------
  // From corner lists back to rectangles

  /** fromPoints: the smallest rectangle holding all the points, anchored at the minimum corner. */
  function FromPoints(pts: Polygon): (r: Rect)
    requires pts != []
    ensures r.width >= 0.0 && r.height >= 0.0
    ensures forall i :: 0 <= i < |pts| ==> r.ContainsPoint(pts[i])
    ensures (exists i :: 0 <= i < |pts| && pts[i].x == r.x) && (exists i :: 0 <= i < |pts| && pts[i].y == r.y)
    ensures (exists i :: 0 <= i < |pts| && pts[i].x == r.x + r.width) && (exists i :: 0 <= i < |pts| && pts[i].y == r.y + r.height)
  {
    var b := BoundingBox(pts).value;
    assert forall i :: 0 <= i < |pts| ==> InBox(b, pts[i]);
    Rect(b.minX, b.minY, b.maxX - b.minX, b.maxY - b.minY)
  }

  /** fromPoints undoes toAdaptedForm for every rectangle with no negative side. */
  lemma FromPointsRoundTrip(r: Rect)
    requires r.width >= 0.0 && r.height >= 0.0
    ensures FromPoints(r.ToAdaptedForm()) == r
  {
    var pts := r.ToAdaptedForm();
    var f := FromPoints(pts);
    assert f.ContainsPoint(pts[0]) && f.ContainsPoint(pts[2]);
    assert forall i :: 0 <= i < 4 ==> r.x <= pts[i].x <= r.x + r.width && r.y <= pts[i].y <= r.y + r.height;
  }

  /** `rectangles.map((r) => fromPoints(r.points))`. */
  function FromAll(ps: seq<Polygon>): (rs: seq<Rect>)
    requires forall k :: 0 <= k < |ps| ==> ps[k] != []
    ensures |rs| == |ps| && forall k :: 0 <= k < |ps| ==> rs[k] == FromPoints(ps[k])
  {
    seq(|ps|, k requires 0 <= k < |ps| => FromPoints(ps[k]))
  }

  predicate NonNegative(r: Rect)
  {
    r.width >= 0.0 && r.height >= 0.0
  }

  predicate AllNonNegative(rs: seq<Rect>)
  {
    forall k :: 0 <= k < |rs| ==> NonNegative(rs[k])
  }

  /** Converting rectangles with no negative side to corners and back gives them again. */
  lemma FromAllRoundTrip(rs: seq<Rect>)
    requires AllNonNegative(rs)
    ensures FromAll(AdaptedForms(rs)) == rs
  {
    forall k | 0 <= k < |rs|
      ensures FromAll(AdaptedForms(rs))[k] == rs[k]
    {
      FromPointsRoundTrip(rs[k]);
    }
  }

  // ---------------------------------------------------------------------------------------
  // One merge pass

  /** mergeHorizontal grows a rectangle to the right, mergeVertical grows it upwards. */
  datatype Axis = Horizontal | Vertical

  /** The exact adjacency test: the same y and height with the right edge on other's left edge,
      or the same x and width with the top edge on other's bottom edge. */
  predicate CanMerge(axis: Axis, e: Rect, other: Rect)
  {
    match axis
    case Horizontal => e.height == other.height && e.y == other.y && e.x + e.width == other.x
    case Vertical => e.width == other.width && e.x == other.x && e.y + e.height == other.y
  }

  /** The merged rectangle: e extended by other's width (horizontal) or height (vertical). */
  function Absorb(axis: Axis, e: Rect, other: Rect): Rect
  {
    match axis
    case Horizontal => Rect(e.x, e.y, e.width + other.width, e.height)
    case Vertical => Rect(e.x, e.y, e.width, e.height + other.height)
  }

  /** e keeps the corner and the side across the merge axis (height horizontally, width vertically) of the seed s. */
  predicate Keeps(axis: Axis, e: Rect, s: Rect)
  {
    e.x == s.x && e.y == s.y && (if axis == Horizontal then e.height == s.height else e.width == s.width)
  }

  /** The first index k >= lo not in used whose rectangle e can absorb. */
  function FirstMergeable(axis: Axis, rs: seq<Rect>, used: set<int>, e: Rect, lo: nat): (m: Option<nat>)
    ensures m.Some? ==> lo <= m.value < |rs| && m.value !in used && CanMerge(axis, e, rs[m.value])
    ensures m.Some? ==> forall k :: lo <= k < m.value ==> k in used || !CanMerge(axis, e, rs[k])
    ensures m.None? ==> forall k :: lo <= k < |rs| ==> k in used || !CanMerge(axis, e, rs[k])
    decreases |rs| - lo
  {
    if lo >= |rs| then None
    else if lo !in used && CanMerge(axis, e, rs[lo]) then Some(lo)
    else FirstMergeable(axis, rs, used, e, lo + 1)
  }

  /** The indices after i still available. */
  function Open(rs: seq<Rect>, used: set<int>, i: nat): set<int>
  {
    set k | i < k < |rs| && k !in used
  }

  /** The `while (foundMerge)` loop for the seed at index i: absorb the first available later
      rectangle that fits, mark it used, and try again until none fits. The result keeps the
      seed's corner and its side across the axis, and only later indices are marked. */
  function Grow(axis: Axis, rs: seq<Rect>, used: set<int>, e: Rect, i: nat): (g: (Rect, set<int>))
    ensures used <= g.1 && forall k :: k in g.1 && k !in used ==> i < k < |rs|
    ensures Keeps(axis, g.0, e)
    decreases Open(rs, used, i)
  {
    match FirstMergeable(axis, rs, used, e, i + 1)
    case None => (e, used)
    case Some(j) =>
      assert j in Open(rs, used, i) && j !in Open(rs, used + {j}, i);
      Grow(axis, rs, used + {j}, Absorb(axis, e, rs[j]), i)
  }

  /** The rest of a pass from index i, given the indices already used. */
  function PassFrom(axis: Axis, rs: seq<Rect>, used: set<int>, i: nat): seq<Rect>
    decreases |rs| - i
  {
    if i >= |rs| then []
    else if i in used then PassFrom(axis, rs, used, i + 1)
    else
      var g := Grow(axis, rs, used, rs[i], i);
      [g.0] + PassFrom(axis, rs, g.1 + {i}, i + 1)
  }

  /** What mergeHorizontal (Horizontal) or mergeVertical (Vertical) returns. */
  function Merge(axis: Axis, rs: seq<Rect>): seq<Rect>
  {
    PassFrom(axis, rs, {}, 0)
  }

  /** The inner `for j` loop: the first later index, not yet used, whose rectangle e can absorb. */
  method FindMergeable(axis: Axis, rs: seq<Rect>, used: set<int>, e: Rect, i: nat) returns (found: Option<nat>)
    requires i < |rs|
    ensures found == FirstMergeable(axis, rs, used, e, i + 1)
  {
    for j := i + 1 to |rs|
      invariant FirstMergeable(axis, rs, used, e, i + 1) == FirstMergeable(axis, rs, used, e, j)
    {
      if j !in used {
        var other := rs[j];
        if CanMerge(axis, e, other) {
          return Some(j);
        }
      }
    }
    return None;
  }

  /** The `while (foundMerge)` loop for the seed at index i, returning the grown rectangle and
      the used indices with every absorbed one added. */
  method Expand(axis: Axis, rs: seq<Rect>, used0: set<int>, i: nat) returns (expanded: Rect, used: set<int>)
    requires i < |rs|
    ensures (expanded, used) == Grow(axis, rs, used0, rs[i], i)
  {
    var rect := rs[i];
    expanded := Rect(rect.x, rect.y, rect.width, rect.height);
    used := used0;
    var foundMerge := true;
    while foundMerge
      invariant Grow(axis, rs, used, expanded, i) == Grow(axis, rs, used0, rs[i], i)
      invariant !foundMerge ==> Grow(axis, rs, used, expanded, i) == (expanded, used)
      decreases Open(rs, used, i), foundMerge
    {
      foundMerge := false;
      var found := FindMergeable(axis, rs, used, expanded, i);
      if found.Some? {
        var j := found.value;
        assert j in Open(rs, used, i) && j !in Open(rs, used + {j}, i);
        expanded := Absorb(axis, expanded, rs[j]);
        used := used + {j};
        foundMerge := true;
      }
    }
  }

  /** One merge pass: every index not yet used seeds a rectangle, which absorbs later
      rectangles until none fits; the seed and everything it absorbed are marked used. */
  method MergePass(axis: Axis, rs: seq<Rect>) returns (merged: seq<Rect>)
    ensures merged == Merge(axis, rs)
  {
    merged := [];
    var used: set<int> := {};
    for i := 0 to |rs|
      invariant merged + PassFrom(axis, rs, used, i) == Merge(axis, rs)
    {
      if i !in used {
        var expanded;
        expanded, used := Expand(axis, rs, used, i);
        merged := merged + [expanded];
        used := used + {i};
      }
    }
  }

  /** mergeHorizontal. */
  method MergeHorizontal(rs: seq<Rect>) returns (merged: seq<Rect>)
    ensures merged == Merge(Horizontal, rs)
  {
    merged := MergePass(Horizontal, rs);
  }

  /** mergeVertical. */
  method MergeVertical(rs: seq<Rect>) returns (merged: seq<Rect>)
    ensures merged == Merge(Vertical, rs)
  {
    merged := MergePass(Vertical, rs);
  }

  // ---------------------------------------------------------------------------------------
  // What a pass preserves

  /** The number of indices in [lo, |rs|) not yet used. */
  function Unused(rs: seq<Rect>, used: set<int>, lo: nat): nat
    decreases |rs| - lo
  {
    if lo >= |rs| then 0 else (if lo in used then 0 else 1) + Unused(rs, used, lo + 1)
  }

  lemma {:induction false} UnusedShrinks(rs: seq<Rect>, used: set<int>, more: set<int>, lo: nat)
    requires used <= more
    ensures Unused(rs, more, lo) <= Unused(rs, used, lo)
    decreases |rs| - lo
  {
    if lo < |rs| {
      UnusedShrinks(rs, used, more, lo + 1);
    }
  }

  lemma {:induction false} UnusedIgnoresBelow(rs: seq<Rect>, used: set<int>, k: int, lo: nat)
    requires k < lo
    ensures Unused(rs, used + {k}, lo) == Unused(rs, used, lo)
    decreases |rs| - lo
  {
    if lo < |rs| {
      UnusedIgnoresBelow(rs, used, k, lo + 1);
    }
  }

  lemma {:induction false} UnusedNone(rs: seq<Rect>, lo: nat)
    requires lo <= |rs|
    ensures Unused(rs, {}, lo) == |rs| - lo
    decreases |rs| - lo
  {
    if lo < |rs| {
      UnusedNone(rs, lo + 1);
    }
  }

  /** The rest of a pass emits at most one rectangle per index not yet used. */
  lemma {:induction false} PassFromCount(axis: Axis, rs: seq<Rect>, used: set<int>, i: nat)
    ensures |PassFrom(axis, rs, used, i)| <= Unused(rs, used, i)
    decreases |rs| - i
  {
    if i < |rs| {
      if i in used {
        PassFromCount(axis, rs, used, i + 1);
      } else {
        var g := Grow(axis, rs, used, rs[i], i);
        PassFromCount(axis, rs, g.1 + {i}, i + 1);
        UnusedIgnoresBelow(rs, g.1, i, i + 1);
        UnusedShrinks(rs, used, g.1, i + 1);
      }
    }
  }

  /** A pass never returns more rectangles than it receives, and at least one when it receives any. */
  lemma MergeCount(axis: Axis, rs: seq<Rect>)
    ensures |Merge(axis, rs)| <= |rs|
    ensures |rs| > 0 ==> |Merge(axis, rs)| >= 1
  {
    PassFromCount(axis, rs, {}, 0);
    UnusedNone(rs, 0);
  }

  function Area(r: Rect): real
  {
    r.width * r.height
  }

  /** The sum of width * height over the list. */
  function TotalArea(rs: seq<Rect>): real
  {
    if rs == [] then 0.0 else Area(rs[0]) + TotalArea(rs[1..])
  }

  /** The total area of the indices in [lo, |rs|) not yet used. */
  function OpenArea(rs: seq<Rect>, used: set<int>, lo: nat): real
    decreases |rs| - lo
  {
    if lo >= |rs| then 0.0 else (if lo in used then 0.0 else Area(rs[lo])) + OpenArea(rs, used, lo + 1)
  }

  /** Merging two adjacent rectangles adds their areas. */
  lemma AbsorbArea(axis: Axis, e: Rect, other: Rect)
    requires CanMerge(axis, e, other)
    ensures Area(Absorb(axis, e, other)) == Area(e) + Area(other)
  {
    match axis
    case Horizontal =>
      assert (e.width + other.width) * e.height == e.width * e.height + other.width * e.height;
    case Vertical =>
      assert e.width * (e.height + other.height) == e.width * e.height + e.width * other.height;
  }

  lemma {:induction false} OpenAreaIgnoresBelow(rs: seq<Rect>, used: set<int>, k: int, lo: nat)
    requires k < lo
    ensures OpenArea(rs, used + {k}, lo) == OpenArea(rs, used, lo)
    decreases |rs| - lo
  {
    if lo < |rs| {
      OpenAreaIgnoresBelow(rs, used, k, lo + 1);
    }
  }

  /** Marking one more index used removes its area. */
  lemma {:induction false} OpenAreaRemove(rs: seq<Rect>, used: set<int>, j: nat, lo: nat)
    requires lo <= j < |rs| && j !in used
    ensures OpenArea(rs, used + {j}, lo) == OpenArea(rs, used, lo) - Area(rs[j])
    decreases |rs| - lo
  {
    if lo < j {
      OpenAreaRemove(rs, used, j, lo + 1);
    } else {
      OpenAreaIgnoresBelow(rs, used, j, lo + 1);
    }
  }

  lemma {:induction false} OpenAreaNone(rs: seq<Rect>, lo: nat)
    requires lo <= |rs|
    ensures OpenArea(rs, {}, lo) == TotalArea(rs[lo..])
    decreases |rs| - lo
  {
    if lo < |rs| {
      OpenAreaNone(rs, lo + 1);
      assert rs[lo..][1..] == rs[lo + 1..];
    }
  }

  /** Growing a seed moves exactly the area of what it absorbs from the open indices into it. */
  lemma {:induction false} GrowArea(axis: Axis, rs: seq<Rect>, used: set<int>, e: Rect, i: nat, lo: nat)
    requires lo <= i + 1
    ensures Area(Grow(axis, rs, used, e, i).0) + OpenArea(rs, Grow(axis, rs, used, e, i).1, lo)
         == Area(e) + OpenArea(rs, used, lo)
    decreases Open(rs, used, i)
  {
    match FirstMergeable(axis, rs, used, e, i + 1)
    case None =>
    case Some(j) =>
      assert j in Open(rs, used, i) && j !in Open(rs, used + {j}, i);
      GrowArea(axis, rs, used + {j}, Absorb(axis, e, rs[j]), i, lo);
      AbsorbArea(axis, e, rs[j]);
      OpenAreaRemove(rs, used, j, lo);
  }

  lemma {:induction false} PassFromArea(axis: Axis, rs: seq<Rect>, used: set<int>, i: nat)
    ensures TotalArea(PassFrom(axis, rs, used, i)) == OpenArea(rs, used, i)
    decreases |rs| - i
  {
    if i < |rs| {
      if i in used {
        PassFromArea(axis, rs, used, i + 1);
      } else {
        var g := Grow(axis, rs, used, rs[i], i);
        var rest := PassFrom(axis, rs, g.1 + {i}, i + 1);
        PassFromArea(axis, rs, g.1 + {i}, i + 1);
        OpenAreaIgnoresBelow(rs, g.1, i, i + 1);
        GrowArea(axis, rs, used, rs[i], i, i + 1);
        assert PassFrom(axis, rs, used, i) == [g.0] + rest;
        assert ([g.0] + rest)[1..] == rest;
      }
    }
  }

  /** A pass preserves the total area. */
  lemma MergeArea(axis: Axis, rs: seq<Rect>)
    ensures TotalArea(Merge(axis, rs)) == TotalArea(rs)
  {
    PassFromArea(axis, rs, {}, 0);
    OpenAreaNone(rs, 0);
    assert rs[0..] == rs;
  }

  /** Growing a seed with no negative side over rectangles with no negative side keeps it so. */
  lemma {:induction false} GrowNonNegative(axis: Axis, rs: seq<Rect>, used: set<int>, e: Rect, i: nat)
    requires AllNonNegative(rs) && NonNegative(e)
    ensures NonNegative(Grow(axis, rs, used, e, i).0)
    decreases Open(rs, used, i)
  {
    match FirstMergeable(axis, rs, used, e, i + 1)
    case None =>
    case Some(j) =>
      assert j in Open(rs, used, i) && j !in Open(rs, used + {j}, i);
      GrowNonNegative(axis, rs, used + {j}, Absorb(axis, e, rs[j]), i);
  }

  /** r keeps the corner and the side across the axis of some rectangle of rs. */
  ghost predicate SeededBy(axis: Axis, r: Rect, rs: seq<Rect>)
  {
    exists s :: 0 <= s < |rs| && Keeps(axis, r, rs[s])
  }

  /** Every rectangle of the rest of a pass keeps the corner and the side across the merge axis of an input
      rectangle, and has no negative side when no input has one. */
  lemma {:induction false} PassFromShape(axis: Axis, rs: seq<Rect>, used: set<int>, i: nat)
    ensures forall r :: r in PassFrom(axis, rs, used, i) ==> SeededBy(axis, r, rs)
    ensures AllNonNegative(rs) ==> AllNonNegative(PassFrom(axis, rs, used, i))
    decreases |rs| - i
  {
    if i < |rs| {
      if i in used {
        PassFromShape(axis, rs, used, i + 1);
      } else {
        var g := Grow(axis, rs, used, rs[i], i);
        var rest := PassFrom(axis, rs, g.1 + {i}, i + 1);
        PassFromShape(axis, rs, g.1 + {i}, i + 1);
        if AllNonNegative(rs) {
          GrowNonNegative(axis, rs, used, rs[i], i);
        }
        assert PassFrom(axis, rs, used, i) == [g.0] + rest;
        assert Keeps(axis, g.0, rs[i]);
        assert SeededBy(axis, g.0, rs);
      }
    }
  }

  // ---------------------------------------------------------------------------------------
  // Which inputs each output consumes

  /** The side a merge along the axis lengthens: the width horizontally, the height vertically. */
  function Side(axis: Axis, r: Rect): real
  {
    match axis
    case Horizontal => r.width
    case Vertical => r.height
  }

  /** The sum of the sides of the indices of s in [lo, |rs|). */
  function SideOver(axis: Axis, rs: seq<Rect>, s: set<int>, lo: nat): real
    decreases |rs| - lo
  {
    if lo >= |rs| then 0.0 else (if lo in s then Side(axis, rs[lo]) else 0.0) + SideOver(axis, rs, s, lo + 1)
  }

  lemma {:induction false} SideOverEmpty(axis: Axis, rs: seq<Rect>, lo: nat)
    ensures SideOver(axis, rs, {}, lo) == 0.0
    decreases |rs| - lo
  {
    if lo < |rs| {
      SideOverEmpty(axis, rs, lo + 1);
    }
  }

  lemma {:induction false} SideOverIgnoresBelow(axis: Axis, rs: seq<Rect>, s: set<int>, k: int, lo: nat)
    requires k < lo
    ensures SideOver(axis, rs, s + {k}, lo) == SideOver(axis, rs, s, lo)
    decreases |rs| - lo
  {
    if lo < |rs| {
      SideOverIgnoresBelow(axis, rs, s, k, lo + 1);
    }
  }

  /** Adding one index adds its side. */
  lemma {:induction false} SideOverAdd(axis: Axis, rs: seq<Rect>, s: set<int>, j: nat, lo: nat)
    requires lo <= j < |rs| && j !in s
    ensures SideOver(axis, rs, s + {j}, lo) == SideOver(axis, rs, s, lo) + Side(axis, rs[j])
    decreases |rs| - lo
  {
    if lo < j {
      SideOverAdd(axis, rs, s, j, lo + 1);
    } else {
      SideOverIgnoresBelow(axis, rs, s, j, lo + 1);
    }
  }

  /** Growing a seed lengthens its side along the axis by exactly the sides of the rectangles
      it absorbs, the indices it adds to used. */
  lemma {:induction false} GrowSide(axis: Axis, rs: seq<Rect>, used: set<int>, e: Rect, i: nat)
    ensures Side(axis, Grow(axis, rs, used, e, i).0)
         == Side(axis, e) + SideOver(axis, rs, Grow(axis, rs, used, e, i).1 - used, 0)
    decreases Open(rs, used, i)
  {
    match FirstMergeable(axis, rs, used, e, i + 1)
    case None =>
      assert Grow(axis, rs, used, e, i).1 - used == {};
      SideOverEmpty(axis, rs, 0);
    case Some(j) =>
      assert j in Open(rs, used, i) && j !in Open(rs, used + {j}, i);
      var g := Grow(axis, rs, used + {j}, Absorb(axis, e, rs[j]), i);
      GrowSide(axis, rs, used + {j}, Absorb(axis, e, rs[j]), i);
      assert g.1 - used == (g.1 - (used + {j})) + {j};
      SideOverAdd(axis, rs, g.1 - (used + {j}), j, 0);
  }

  /** The indices merged into each rectangle of the rest of a pass: its seed and every index
      the seed absorbed. */
  ghost function PassGroups(axis: Axis, rs: seq<Rect>, used: set<int>, i: nat): seq<set<int>>
    decreases |rs| - i
  {
    if i >= |rs| then []
    else if i in used then PassGroups(axis, rs, used, i + 1)
    else
      var g := Grow(axis, rs, used, rs[i], i);
      [g.1 - used + {i}] + PassGroups(axis, rs, g.1 + {i}, i + 1)
  }

  ghost function Union(gs: seq<set<int>>): set<int>
  {
    if gs == [] then {} else gs[0] + Union(gs[1..])
  }

  /** No index lies in two of the groups. */
  ghost predicate Disjoint(gs: seq<set<int>>)
  {
    forall a, b :: 0 <= a < b < |gs| ==> gs[a] !! gs[b]
  }

  lemma {:induction false} InUnion(gs: seq<set<int>>, a: nat)
    requires a < |gs|
    ensures gs[a] <= Union(gs)
  {
    if a > 0 {
      InUnion(gs[1..], a - 1);
    }
  }

  lemma DisjointCons(g: set<int>, gs: seq<set<int>>)
    requires Disjoint(gs) && g !! Union(gs)
    ensures Disjoint([g] + gs)
  {
    var all := [g] + gs;
    forall a, b | 0 <= a < b < |all|
      ensures all[a] !! all[b]
    {
      if a == 0 {
        InUnion(gs, b - 1);
      }
    }
  }

  /** The rest of a pass emits one group per rectangle, and each rectangle's side along the
      axis is the sum of its group's sides. */
  lemma {:induction false} PassGroupsSides(axis: Axis, rs: seq<Rect>, used: set<int>, i: nat)
    ensures |PassGroups(axis, rs, used, i)| == |PassFrom(axis, rs, used, i)|
    ensures forall a :: 0 <= a < |PassGroups(axis, rs, used, i)| ==>
              Side(axis, PassFrom(axis, rs, used, i)[a]) == SideOver(axis, rs, PassGroups(axis, rs, used, i)[a], 0)
    decreases |rs| - i
  {
    if i < |rs| {
      if i in used {
        PassGroupsSides(axis, rs, used, i + 1);
      } else {
        var g := Grow(axis, rs, used, rs[i], i);
        var gs := PassGroups(axis, rs, g.1 + {i}, i + 1);
        var rest := PassFrom(axis, rs, g.1 + {i}, i + 1);
        PassGroupsSides(axis, rs, g.1 + {i}, i + 1);
        assert PassGroups(axis, rs, used, i) == [g.1 - used + {i}] + gs;
        assert PassFrom(axis, rs, used, i) == [g.0] + rest;
        GrowSide(axis, rs, used, rs[i], i);
        SideOverAdd(axis, rs, g.1 - used, i, 0);
      }
    }
  }

  /** The groups of the rest of a pass hold exactly the indices from i on not yet used. */
  lemma {:induction false} PassGroupsUnion(axis: Axis, rs: seq<Rect>, used: set<int>, i: nat)
    ensures forall k :: k in Union(PassGroups(axis, rs, used, i)) <==> i <= k < |rs| && k !in used
    decreases |rs| - i
  {
    if i < |rs| {
      if i in used {
        PassGroupsUnion(axis, rs, used, i + 1);
      } else {
        var g := Grow(axis, rs, used, rs[i], i);
        var gs := PassGroups(axis, rs, g.1 + {i}, i + 1);
        PassGroupsUnion(axis, rs, g.1 + {i}, i + 1);
        assert PassGroups(axis, rs, used, i) == [g.1 - used + {i}] + gs;
        assert ([g.1 - used + {i}] + gs)[1..] == gs;
      }
    }
  }

  /** No index lies in two groups of the rest of a pass. */
  lemma {:induction false} PassGroupsDisjoint(axis: Axis, rs: seq<Rect>, used: set<int>, i: nat)
    ensures Disjoint(PassGroups(axis, rs, used, i))
    decreases |rs| - i
  {
    if i < |rs| {
      if i in used {
        PassGroupsDisjoint(axis, rs, used, i + 1);
      } else {
        var g := Grow(axis, rs, used, rs[i], i);
        var gs := PassGroups(axis, rs, g.1 + {i}, i + 1);
        PassGroupsDisjoint(axis, rs, g.1 + {i}, i + 1);
        PassGroupsUnion(axis, rs, g.1 + {i}, i + 1);
        assert PassGroups(axis, rs, used, i) == [g.1 - used + {i}] + gs;
        DisjointCons(g.1 - used + {i}, gs);
      }
    }
  }

  /** g holds the seed of r: its least index, whose rectangle r keeps the corner and the side
      across the axis of. */
  ghost predicate SeedIn(axis: Axis, r: Rect, rs: seq<Rect>, g: set<int>)
  {
    exists s :: s in g && 0 <= s < |rs| && Keeps(axis, r, rs[s]) && forall k :: k in g ==> s <= k
  }

  /** Each rectangle of the rest of a pass has its seed in its group. */
  lemma {:induction false} PassGroupsSeed(axis: Axis, rs: seq<Rect>, used: set<int>, i: nat)
    ensures |PassGroups(axis, rs, used, i)| == |PassFrom(axis, rs, used, i)|
    ensures forall a :: 0 <= a < |PassGroups(axis, rs, used, i)| ==>
              SeedIn(axis, PassFrom(axis, rs, used, i)[a], rs, PassGroups(axis, rs, used, i)[a])
    decreases |rs| - i
  {
    PassGroupsSides(axis, rs, used, i);
    if i < |rs| {
      if i in used {
        PassGroupsSeed(axis, rs, used, i + 1);
      } else {
        var g := Grow(axis, rs, used, rs[i], i);
        var gs := PassGroups(axis, rs, g.1 + {i}, i + 1);
        var rest := PassFrom(axis, rs, g.1 + {i}, i + 1);
        PassGroupsSeed(axis, rs, g.1 + {i}, i + 1);
        assert PassGroups(axis, rs, used, i) == [g.1 - used + {i}] + gs;
        assert PassFrom(axis, rs, used, i) == [g.0] + rest;
        assert i in g.1 - used + {i} && Keeps(axis, g.0, rs[i]);
        assert SeedIn(axis, g.0, rs, g.1 - used + {i});
      }
    }
  }

  /** The groups of a whole pass, one per rectangle it returns. */
  ghost function MergeGroups(axis: Axis, rs: seq<Rect>): seq<set<int>>
  {
    PassGroups(axis, rs, {}, 0)
  }

  /** mergeHorizontal and mergeVertical consume every input index exactly once through `used`:
      the groups are disjoint and together are all the indices, each returned rectangle's
      side along the axis is the sum of the sides of the inputs merged into it, and its group's
      least index is its seed, whose corner and side across the axis it keeps. */
  lemma MergePartition(axis: Axis, rs: seq<Rect>)
    ensures |MergeGroups(axis, rs)| == |Merge(axis, rs)|
    ensures forall k :: k in Union(MergeGroups(axis, rs)) <==> 0 <= k < |rs|
    ensures Disjoint(MergeGroups(axis, rs))
    ensures forall a :: 0 <= a < |MergeGroups(axis, rs)| ==>
              Side(axis, Merge(axis, rs)[a]) == SideOver(axis, rs, MergeGroups(axis, rs)[a], 0)
    ensures forall a :: 0 <= a < |MergeGroups(axis, rs)| ==> SeedIn(axis, Merge(axis, rs)[a], rs, MergeGroups(axis, rs)[a])
  {
    PassGroupsSides(axis, rs, {}, 0);
    PassGroupsSeed(axis, rs, {}, 0);
    PassGroupsUnion(axis, rs, {}, 0);
    PassGroupsDisjoint(axis, rs, {}, 0);
  }

  /** No rectangle can absorb a later one along the axis. */
  predicate NoMerges(axis: Axis, rs: seq<Rect>)
  {
    forall i, j :: 0 <= i < j < |rs| ==> !CanMerge(axis, rs[i], rs[j])
  }

  lemma {:induction false} PassFromUnchanged(axis: Axis, rs: seq<Rect>, used: set<int>, i: nat)
    requires NoMerges(axis, rs) && i <= |rs|
    requires forall k :: k in used ==> k < i
    ensures PassFrom(axis, rs, used, i) == rs[i..]
    decreases |rs| - i
  {
    if i < |rs| {
      var m := FirstMergeable(axis, rs, used, rs[i], i + 1);
      assert m.None? by {
        if m.Some? {
          assert false;
        }
      }
      assert Grow(axis, rs, used, rs[i], i) == (rs[i], used);
      PassFromUnchanged(axis, rs, used + {i}, i + 1);
      assert rs[i..] == [rs[i]] + rs[i + 1..];
    }
  }

  /** When no pair can merge, a pass returns its input unchanged and in order. */
  lemma MergeUnchanged(axis: Axis, rs: seq<Rect>)
    requires NoMerges(axis, rs)
    ensures Merge(axis, rs) == rs
  {
    PassFromUnchanged(axis, rs, {}, 0);
    assert rs[0..] == rs;
  }

  // ---------------------------------------------------------------------------------------
  // Repeating the passes

  /** One round: the horizontal pass, then the vertical pass on its result. */
  function Round(rs: seq<Rect>): seq<Rect>
  {
    Merge(Vertical, Merge(Horizontal, rs))
  }

  /** A round never adds rectangles, keeps at least one, and preserves area and non-negative sides. */
  lemma RoundFacts(rs: seq<Rect>)
    ensures |Round(rs)| <= |rs|
    ensures |rs| > 0 ==> |Round(rs)| >= 1
    ensures TotalArea(Round(rs)) == TotalArea(rs)
    ensures AllNonNegative(rs) ==> AllNonNegative(Round(rs))
  {
    var h := Merge(Horizontal, rs);
    MergeCount(Horizontal, rs);
    MergeCount(Vertical, h);
    MergeArea(Horizontal, rs);
    MergeArea(Vertical, h);
    PassFromShape(Horizontal, rs, {}, 0);
    PassFromShape(Vertical, h, {}, 0);
  }

  /** The outer loop of reduceRectangles: repeat rounds while more than one rectangle is left
      and a round lowers the count. */
  function ReduceLoop(rs: seq<Rect>): seq<Rect>
    decreases |rs|
  {
    if |rs| <= 1 then rs
    else
      var next := Round(rs);
      RoundFacts(rs);
      if |next| == |rs| then rs else ReduceLoop(next)
  }

  /** What reduceRectangles returns. */
  function Reduced(ps: seq<Polygon>): seq<Polygon>
    requires forall k :: 0 <= k < |ps| ==> ps[k] != []
  {
    AdaptedForms(ReduceLoop(FromAll(ps)))
  }

  /** reduceRectangles: convert to rectangles, run rounds until the count stops falling,
      convert back. */
  method ReduceRectangles(ps: seq<Polygon>) returns (result: seq<Polygon>)
    requires forall k :: 0 <= k < |ps| ==> ps[k] != []
    ensures result == Reduced(ps)
  {
    var copy := FromAll(ps);
    while |copy| > 1
      invariant ReduceLoop(copy) == ReduceLoop(FromAll(ps))
      decreases |copy|
    {
      var horizontal := MergeHorizontal(copy);
      var next := MergeVertical(horizontal);
      if |next| == |copy| {
        break;
      }
      RoundFacts(copy);
      copy := next;
    }
    result := AdaptedForms(copy);
  }

  /** The loop keeps the count between one and the input's, preserves area and non-negative
      sides, and stops at a list that one more round cannot shorten. */
  lemma {:induction false} ReduceLoopFacts(rs: seq<Rect>)
    ensures |ReduceLoop(rs)| <= |rs|
    ensures |rs| > 0 ==> |ReduceLoop(rs)| >= 1
    ensures TotalArea(ReduceLoop(rs)) == TotalArea(rs)
    ensures AllNonNegative(rs) ==> AllNonNegative(ReduceLoop(rs))
    ensures |ReduceLoop(rs)| <= 1 || |Round(ReduceLoop(rs))| == |ReduceLoop(rs)|
    decreases |rs|
  {
    if |rs| > 1 {
      RoundFacts(rs);
      if |Round(rs)| != |rs| {
        ReduceLoopFacts(Round(rs));
      }
    }
  }

  /** Running the loop again on its own result changes nothing. */
  lemma ReduceLoopIdempotent(rs: seq<Rect>)
    ensures ReduceLoop(ReduceLoop(rs)) == ReduceLoop(rs)
  {
    ReduceLoopFacts(rs);
  }

  /** The promises of reduceRectangles: no more rectangles than it receives, at least one for a
      non-empty input, the same total area, and nothing left to reduce: running it on its own
      output gives that output again. */
  lemma ReducedSound(ps: seq<Polygon>)
    requires forall k :: 0 <= k < |ps| ==> ps[k] != []
    ensures |Reduced(ps)| <= |ps|
    ensures |ps| > 0 ==> |Reduced(ps)| >= 1
    ensures TotalArea(ReduceLoop(FromAll(ps))) == TotalArea(FromAll(ps))
    ensures forall k :: 0 <= k < |Reduced(ps)| ==> Reduced(ps)[k] != []
    ensures Reduced(Reduced(ps)) == Reduced(ps)
  {
    var rs := ReduceLoop(FromAll(ps));
    ReduceLoopFacts(FromAll(ps));
    FromAllRoundTrip(rs);
    ReduceLoopIdempotent(FromAll(ps));
  }
}

=== FILE: scanline.dfy ===
/** The scanline strategies: for each row y = minY + k*s the crossings of the row are sorted
    and paired consecutively; each span becomes one rectangle of height s (createScanlines) or
    a run of grid-aligned s-by-s squares (createSquarePolygonsV2). */
module Scanline {
  import opened Geometry
  import opened Grid

  // ---------------------------------------------------------------------------------------
  // Sorting the crossings

  predicate Sorted(xs: seq<real>)
  {
    forall i, j :: 0 <= i < j < |xs| ==> xs[i] <= xs[j]
  }

  /** A sorted list stays sorted with a value no larger than its elements in front. */
  lemma ConsSorted(x: real, ys: seq<real>)
    requires Sorted(ys) && forall k :: 0 <= k < |ys| ==> x <= ys[k]
    ensures Sorted([x] + ys)
  {
    var zs := [x] + ys;
    forall i, j | 0 <= i < j < |zs|
      ensures zs[i] <= zs[j]
    {
      assert zs[j] == ys[j - 1];
      if i > 0 {
        assert zs[i] == ys[i - 1];
      }
    }
  }

  /** Adding v to the values of ys keeps every value at least x when v and ys are. */
  lemma LowerBound(x: real, ys: seq<real>, v: real, rest: seq<real>)
    requires x <= v && forall k :: 0 <= k < |ys| ==> x <= ys[k]
    requires multiset(rest) == multiset(ys) + multiset{v}
    ensures forall k :: 0 <= k < |rest| ==> x <= rest[k]
  {
    forall k | 0 <= k < |rest|
      ensures x <= rest[k]
    {
      assert rest[k] in multiset(rest);
      if rest[k] != v {
        assert rest[k] in multiset(ys);
        assert rest[k] in ys;
      }
    }
  }

  /** xs with v placed before its first element that is not smaller than v. */
  function Insert(v: real, xs: seq<real>): (r: seq<real>)
    requires Sorted(xs)
    ensures Sorted(r)
    decreases |xs|, 0
  {
    if xs == [] || v <= xs[0] then
      ConsSorted(v, xs);
      [v] + xs
    else
      var rest := Insert(v, xs[1..]);
      assert xs == [xs[0]] + xs[1..];
      InsertPermutes(v, xs[1..]);
      LowerBound(xs[0], xs[1..], v, rest);
      ConsSorted(xs[0], rest);
      [xs[0]] + rest
  }

  /** Inserting adds exactly v to the values of xs. */
  lemma {:induction false} InsertPermutes(v: real, xs: seq<real>)
    requires Sorted(xs)
    ensures multiset(Insert(v, xs)) == multiset(xs) + multiset{v}
    decreases |xs|, 1
  {
    if !(xs == [] || v <= xs[0]) {
      assert xs == [xs[0]] + xs[1..];
      InsertPermutes(v, xs[1..]);
    }
  }

  /** The ascending numeric sort `intersections.sort((a, b) => a - b)`, as an insertion sort:
      the result is sorted (SortPermutes: and a permutation of the input). */
  function Sort(xs: seq<real>): (r: seq<real>)
    ensures Sorted(r)
  {
    if xs == [] then []
    else Insert(xs[0], Sort(xs[1..]))
  }

  /** Sorting keeps exactly the values of the input. */
  lemma {:induction false} SortPermutes(xs: seq<real>)
    ensures multiset(Sort(xs)) == multiset(xs)
  {
    if xs != [] {
      assert xs == [xs[0]] + xs[1..];
      SortPermutes(xs[1..]);
      InsertPermutes(xs[0], Sort(xs[1..]));
    }
  }

  /** A sorted permutation is unique, so any correct sort returns what Sort returns. */
  lemma {:induction false} SortedPermutationUnique(a: seq<real>, b: seq<real>)
    requires Sorted(a) && Sorted(b) && multiset(a) == multiset(b)
    ensures a == b
    decreases |a|
  {
    assert |a| == |multiset(a)| == |multiset(b)| == |b|;
    if a != [] {
      assert a[0] in multiset(b) && b[0] in multiset(a);
      var i :| 0 <= i < |b| && b[i] == a[0];
      var j :| 0 <= j < |a| && a[j] == b[0];
      assert a[0] <= a[j] && b[0] <= b[i];
      assert a[0] == b[0];
      TailPermutation(a, b);
      SortedPermutationUnique(a[1..], b[1..]);
    }
  }

  /** Sort returns the one sorted permutation of its input. */
  lemma SortFinds(xs: seq<real>, want: seq<real>)
    requires Sorted(want) && multiset(xs) == multiset(want)
    ensures Sort(xs) == want
  {
    SortPermutes(xs);
    SortedPermutationUnique(Sort(xs), want);
  }

  /** Two permutations of each other with the same first element stay permutations of each
      other once that element is removed. */
  lemma TailPermutation(a: seq<real>, b: seq<real>)
    requires |a| > 0 && |b| > 0 && a[0] == b[0] && multiset(a) == multiset(b)
    ensures multiset(a[1..]) == multiset(b[1..])
  {
    assert a == [a[0]] + a[1..] && b == [b[0]] + b[1..];
    assert multiset(a[1..]) == multiset(a) - multiset{a[0]};
    assert multiset(b[1..]) == multiset(b) - multiset{b[0]};
  }

  // ---------------------------------------------------------------------------------------
  // One rectangle per span (createScanlines)

  /** The crossings of the row at height y, in ascending order. */
  function RowCrossingsSorted(poly: Polygon, y: real): seq<real>
  {
    Sort(RowCrossings(poly, y, |poly|))
  }

  /** The number of complete pairs the pair loop has seen after k steps of two over a row of
      n crossings: k, except that an odd last crossing does not make a pair. */
  function PairsDone(k: nat, n: nat): nat
  {
    if 2 * k <= n then k else n / 2
  }

  /** One step of the pair loop at i = 2k < n: k pairs are done before it, and one more after
      it exactly when xs[i + 1] exists. */
  lemma PairsStep(k: nat, n: nat)
    requires 2 * k < n
    ensures PairsDone(k, n) == k
    ensures 2 * k + 1 < n ==> k + 1 <= n / 2 && PairsDone(k + 1, n) == k + 1
    ensures 2 * k + 1 >= n ==> PairsDone(k + 1, n) == k
  {
  }

  /** When the pair loop stops, every complete pair is done. */
  lemma PairsEnd(k: nat, n: nat)
    requires n <= 2 * k <= n + 1
    ensures PairsDone(k, n) == n / 2
  {
  }

  /** One rectangle [xs[2k], xs[2k+1]] x [y, y + s] per consecutive pair; an odd last crossing
      is dropped. */
  function SpanRects(xs: seq<real>, y: real, s: real): seq<Polygon>
  {
    seq(|xs| / 2, k requires 0 <= k < |xs| / 2 => Corners(xs[2 * k], y, xs[2 * k + 1], y + s))
  }

  /** The pair loop's step: the (k+1)-th rectangle joins xs[2k] and xs[2k+1]. */
  lemma SpanRectsStep(xs: seq<real>, y: real, s: real, k: nat)
    requires k < |xs| / 2
    ensures SpanRects(xs, y, s)[..k + 1] == SpanRects(xs, y, s)[..k] + [Corners(xs[2 * k], y, xs[2 * k + 1], y + s)]
  {
  }

  /** The rectangles of the first n rows y0 + j*s, row after row. */
  function Rows(poly: Polygon, y0: real, s: real, n: nat): seq<Polygon>
  {
    if n == 0 then []
    else
      var y := StepAt(y0, s, n - 1);
      Rows(poly, y0, s, n - 1) + SpanRects(RowCrossingsSorted(poly, y), y, s)
  }

  /** What createScanlines returns: nothing for a polygon without points, otherwise the spans
      of the rows minY + j*s < maxY. */
  function Scanlines(poly: Polygon, s: real): seq<Polygon>
    requires s > 0.0
  {
    match BoundingBox(poly)
    case None => []
    case Some(b) => Rows(poly, b.minY, s, StepCount(b.minY, b.maxY, s))
  }

  /** The pair loop of createScanlines over sorted crossings xs: step through them two at a
      time, emitting one rectangle per complete pair. */
  method SpanPairs(xs: seq<real>, y: real, s: real) returns (row: seq<Polygon>)
    ensures row == SpanRects(xs, y, s)
  {
    row := [];
    var i := 0;
    ghost var k := 0;
    while i < |xs|
      invariant i == 2 * k && i <= |xs| + 1
      invariant row == SpanRects(xs, y, s)[..PairsDone(k, |xs|)]
    {
      PairsStep(k, |xs|);
      if i + 1 < |xs| {
        var startX := xs[i];
        var endX := xs[i + 1];
        SpanRectsStep(xs, y, s, k);
        row := row + [Corners(startX, y, endX, y + s)];
      }
      i, k := i + 2, k + 1;
    }
    PairsEnd(k, |xs|);
    assert SpanRects(xs, y, s)[..PairsDone(k, |xs|)] == SpanRects(xs, y, s);
  }

  /** One pass of createScanlines' row loop: find the crossings of the row at height y, sort
      them, and emit one rectangle per complete pair. */
  method ScanRow(poly: Polygon, y: real, s: real) returns (row: seq<Polygon>)
    ensures row == SpanRects(RowCrossingsSorted(poly, y), y, s)
  {
    var found := FindHorizontalIntersections(poly, y);
    var xs := Sort(found);
    row := SpanPairs(xs, y, s);
  }

  /** createScanlines: the rows y = minY, minY + s, ... while y < maxY, each contributing its spans. */
  method CreateScanlines(poly: Polygon, squaresize: real) returns (squares: seq<Polygon>)
    requires squaresize > 0.0
    ensures squares == Scanlines(poly, squaresize)
  {
    var bounds := GetBoundingBox(poly);
    if bounds.None? {
      // the row loop over an empty box runs zero times
      return [];
    }
    var b := bounds.value;
    var s := squaresize;
    ghost var n := StepCount(b.minY, b.maxY, s);
    squares := [];
    var y, j := b.minY, 0;
    while y < b.maxY
      invariant 0 <= j <= n && y == StepAt(b.minY, s, j)
      invariant squares == Rows(poly, b.minY, s, j)
      decreases n - j
    {
      var row := ScanRow(poly, y, s);
      squares := squares + row;
      StepNext(b.minY, s, j);
      y, j := y + s, j + 1;
    }
    assert j == n;
  }

  /** The spans of one sorted row: exactly one rectangle per pair (an odd last crossing is
      dropped), each of height s starting at y with its corners in emission order and start
      x at most end x, and the spans of the row ordered left to right without overlapping. */
  lemma SpanRectsShape(xs: seq<real>, y: real, s: real)
    requires Sorted(xs)
    ensures |SpanRects(xs, y, s)| == |xs| / 2
    ensures forall k :: 0 <= k < |xs| / 2 ==>
              && SpanRects(xs, y, s)[k] == Corners(xs[2 * k], y, xs[2 * k + 1], y + s)
              && xs[2 * k] <= xs[2 * k + 1]
    ensures forall k, l :: 0 <= k < l < |xs| / 2 ==> SpanRects(xs, y, s)[k][1].x <= SpanRects(xs, y, s)[l][0].x
  {
  }

  /** r is the rectangle [a, c] x [y, y + s] of a span whose ends a <= c are both crossings
      of the polygon's boundary with the row at height y. */
  ghost predicate SpanOfRow(r: Polygon, poly: Polygon, y: real, s: real)
  {
    exists a, c ::
      && r == Corners(a, y, c, y + s)
      && a <= c
      && a in RowCrossings(poly, y, |poly|)
      && c in RowCrossings(poly, y, |poly|)
  }

  /** Every span rectangle of the row at height y is a span between two of its crossings. */
  lemma RowSpansSound(poly: Polygon, y: real, s: real)
    ensures forall r :: r in SpanRects(RowCrossingsSorted(poly, y), y, s) ==> SpanOfRow(r, poly, y, s)
  {
    var found := RowCrossings(poly, y, |poly|);
    var xs := RowCrossingsSorted(poly, y);
    var rects := SpanRects(xs, y, s);
    SpanRectsShape(xs, y, s);
    forall r | r in rects
      ensures SpanOfRow(r, poly, y, s)
    {
      var k :| 0 <= k < |rects| && rects[k] == r;
      var a, c := xs[2 * k], xs[2 * k + 1];
      SortPermutes(found);
      assert a in multiset(xs) && c in multiset(xs);
      assert a in found && c in found;
      assert r == Corners(a, y, c, y + s) && a <= c;
    }
  }

  /** Every rectangle of the first n rows is a span of one of the rows y0 + j*s with j < n. */
  lemma {:induction false} RowsSound(poly: Polygon, y0: real, s: real, n: nat)
    ensures forall r :: r in Rows(poly, y0, s, n) ==>
              exists j: nat :: j < n && SpanOfRow(r, poly, StepAt(y0, s, j), s)
  {
    if n > 0 {
      RowsSound(poly, y0, s, n - 1);
      var y := StepAt(y0, s, n - 1);
      RowSpansSound(poly, y, s);
      assert Rows(poly, y0, s, n) == Rows(poly, y0, s, n - 1) + SpanRects(RowCrossingsSorted(poly, y), y, s);
    }
  }

  /** r is a span rectangle of one of the rows y0 + j*s below maxY. */
  ghost predicate SpanOfSomeRow(r: Polygon, poly: Polygon, y0: real, maxY: real, s: real)
  {
    exists j: nat :: StepAt(y0, s, j) < maxY && SpanOfRow(r, poly, StepAt(y0, s, j), s)
  }

  /** A span rectangle overlaps the polygon: its bottom edge starts on a polygon edge. */
  lemma SpanOverlaps(r: Polygon, poly: Polygon, y: real, s: real)
    requires SpanOfRow(r, poly, y, s)
    ensures Overlaps(r, poly)
  {
    var a, c :| r == Corners(a, y, c, y + s) && a <= c && a in RowCrossings(poly, y, |poly|)
                && c in RowCrossings(poly, y, |poly|);
    CrossingBoxOverlaps(poly, y, a, c, y + s);
  }

  /** The promises of createScanlines: a polygon without points yields nothing, and every
      rectangle is a span between two crossings of a row minY + j*s below maxY, so it overlaps
      the polygon in the sense of polygonOverlapsPolygon. */
  lemma ScanlinesSound(poly: Polygon, s: real)
    requires s > 0.0
    ensures poly == [] ==> Scanlines(poly, s) == []
    ensures forall r :: r in Scanlines(poly, s) ==>
              SpanOfSomeRow(r, poly, BoundingBox(poly).value.minY, BoundingBox(poly).value.maxY, s)
    ensures forall r :: r in Scanlines(poly, s) ==> Overlaps(r, poly)
  {
    if poly != [] {
      var b := BoundingBox(poly).value;
      var n := StepCount(b.minY, b.maxY, s);
      assert Scanlines(poly, s) == Rows(poly, b.minY, s, n);
      RowsSound(poly, b.minY, s, n);
      forall r | r in Scanlines(poly, s)
        ensures SpanOfSomeRow(r, poly, b.minY, b.maxY, s) && Overlaps(r, poly)
      {
        var j: nat :| j < n && SpanOfRow(r, poly, StepAt(b.minY, s, j), s);
        assert StepAt(b.minY, s, j) < b.maxY;
        SpanOverlaps(r, poly, StepAt(b.minY, s, j), s);
      }
    } else {
      assert Scanlines(poly, s) == [];
    }
  }

  /** The spans of one sorted row share no interior, and each spans the row's heights. */
  lemma SpanRectsSeparated(xs: seq<real>, y: real, s: real)
    requires Sorted(xs)
    ensures PairwiseSeparated(SpanRects(xs, y, s))
    ensures forall b :: 0 <= b < |SpanRects(xs, y, s)| ==> InRow(SpanRects(xs, y, s)[b], y, s)
  {
    SpanRectsShape(xs, y, s);
  }

  /** The rectangles of the first n rows share no interior, and each spans the heights of
      one of those rows. */
  lemma {:induction false} RowsSeparated(poly: Polygon, y0: real, s: real, n: nat)
    requires s > 0.0
    ensures PairwiseSeparated(Rows(poly, y0, s, n))
    ensures forall a :: 0 <= a < |Rows(poly, y0, s, n)| ==> InSomeRow(Rows(poly, y0, s, n)[a], y0, s, n)
  {
    if n > 0 {
      RowsSeparated(poly, y0, s, n - 1);
      var y := StepAt(y0, s, n - 1);
      var xs := RowCrossingsSorted(poly, y);
      var below := Rows(poly, y0, s, n - 1);
      var row := SpanRects(xs, y, s);
      assert Rows(poly, y0, s, n) == below + row;
      SpanRectsSeparated(xs, y, s);
      StackRow(below, row, y0, s, n - 1);
    }
  }

  /** No two rectangles of createScanlines share interior: spans of one row are ordered left
      to right, and rows are a whole step apart. */
  lemma ScanlinesSeparated(poly: Polygon, s: real)
    requires s > 0.0
    ensures PairwiseSeparated(Scanlines(poly, s))
  {
    if poly != [] {
      var b := BoundingBox(poly).value;
      RowsSeparated(poly, b.minY, s, StepCount(b.minY, b.maxY, s));
    }
  }

  // ---------------------------------------------------------------------------------------
  // Grid-aligned squares per span (createSquarePolygonsV2)

  /** Where the squares of a span starting at a begin: Math.floor(a / s) * s. */
  function TileStart(a: real, s: real): real
    requires s > 0.0
  {
    (a / s).Floor as real * s
  }

  /** The squares of the span [a, b) at height y: x runs from TileStart(a) in steps of s while x < b. */
  function SpanTiles(a: real, b: real, y: real, s: real): seq<Polygon>
    requires s > 0.0
  {
    seq(StepCount(TileStart(a, s), b, s), k requires 0 <= k => Square(StepAt(TileStart(a, s), s, k), y, s))
  }

  /** The squares of the first k spans of the sorted crossings xs. */
  function TiledSpans(xs: seq<real>, y: real, s: real, k: nat): seq<Polygon>
    requires s > 0.0 && k <= |xs| / 2
  {
    if k == 0 then []
    else TiledSpans(xs, y, s, k - 1) + SpanTiles(xs[2 * k - 2], xs[2 * k - 1], y, s)
  }

  /** The pair loop's step: the (k+1)-th pair adds the tiles from xs[2k] to xs[2k+1]. */
  lemma TiledSpansStep(xs: seq<real>, y: real, s: real, k: nat)
    requires s > 0.0 && k < |xs| / 2
    ensures TiledSpans(xs, y, s, k + 1) == TiledSpans(xs, y, s, k) + SpanTiles(xs[2 * k], xs[2 * k + 1], y, s)
  {
  }

  /** The squares of the first n rows y0 + j*s, row after row. */
  function TiledRows(poly: Polygon, y0: real, s: real, n: nat): seq<Polygon>
    requires s > 0.0
  {
    if n == 0 then []
    else
      var y := StepAt(y0, s, n - 1);
      var xs := RowCrossingsSorted(poly, y);
      TiledRows(poly, y0, s, n - 1) + TiledSpans(xs, y, s, |xs| / 2)
  }

  /** What createSquarePolygonsV2 returns. */
  function Tiled(poly: Polygon, s: real): seq<Polygon>
    requires s > 0.0
  {
    match BoundingBox(poly)
    case None => []
    case Some(b) => TiledRows(poly, b.minY, s, StepCount(b.minY, b.maxY, s))
  }

  /** The innermost loop of createSquarePolygonsV2: x runs from Math.floor(startX / s) * s in
      steps of s while x < endX, emitting one square per step. */
  method TileSpan(startX: real, endX: real, y: real, s: real) returns (tiles: seq<Polygon>)
    requires s > 0.0
    ensures tiles == SpanTiles(startX, endX, y, s)
  {
    ghost var start := TileStart(startX, s);
    ghost var m := StepCount(start, endX, s);
    tiles := [];
    var x := (startX / s).Floor as real * s;
    var t := 0;
    while x < endX
      invariant 0 <= t <= m && x == StepAt(start, s, t)
      invariant tiles == SpanTiles(startX, endX, y, s)[..t]
      decreases m - t
    {
      assert SpanTiles(startX, endX, y, s)[..t + 1] == SpanTiles(startX, endX, y, s)[..t] + [Square(x, y, s)];
      tiles := tiles + [Square(x, y, s)];
      StepNext(start, s, t);
      x, t := x + s, t + 1;
    }
    assert SpanTiles(startX, endX, y, s)[..t] == SpanTiles(startX, endX, y, s);
  }

  /** The pair loop of createSquarePolygonsV2 over sorted crossings xs: step through them two
      at a time, tiling each complete pair with TileSpan. */
  method TilePairs(xs: seq<real>, y: real, s: real) returns (row: seq<Polygon>)
    requires s > 0.0
    ensures row == TiledSpans(xs, y, s, |xs| / 2)
  {
    row := [];
    var i := 0;
    ghost var k := 0;
    while i < |xs|
      invariant i == 2 * k && i <= |xs| + 1
      invariant row == TiledSpans(xs, y, s, PairsDone(k, |xs|))
    {
      PairsStep(k, |xs|);
      if i + 1 < |xs| {
        var tiles := TileSpan(xs[i], xs[i + 1], y, s);
        TiledSpansStep(xs, y, s, k);
        row := row + tiles;
      }
      i, k := i + 2, k + 1;
    }
    PairsEnd(k, |xs|);
  }

  /** One pass of createSquarePolygonsV2's row loop: the sorted crossings of the row at height
      y, each complete pair tiled. */
  method TileRow(poly: Polygon, y: real, s: real) returns (row: seq<Polygon>)
    requires s > 0.0
    ensures row == TiledSpans(RowCrossingsSorted(poly, y), y, s, |RowCrossingsSorted(poly, y)| / 2)
  {
    var found := FindHorizontalIntersections(poly, y);
    var xs := Sort(found);
    row := TilePairs(xs, y, s);
  }

  /** createSquarePolygonsV2: the rows y = minY, minY + s, ... while y < maxY, each tiled. */
  method CreateSquarePolygonsV2(poly: Polygon, squareSize: real) returns (squares: seq<Polygon>)
    requires squareSize > 0.0
    ensures squares == Tiled(poly, squareSize)
  {
    var bounds := GetBoundingBox(poly);
    if bounds.None? {
      // the row loop over an empty box runs zero times
      return [];
    }
    var b := bounds.value;
    var s := squareSize;
    ghost var n := StepCount(b.minY, b.maxY, s);
    squares := [];
    var y, j := b.minY, 0;
    while y < b.maxY
      invariant 0 <= j <= n && y == StepAt(b.minY, s, j)
      invariant squares == TiledRows(poly, b.minY, s, j)
      decreases n - j
    {
      var row := TileRow(poly, y, s);
      squares := squares + row;
      StepNext(b.minY, s, j);
      y, j := y + s, j + 1;
    }
    assert j == n;
  }

  /** The first square of a span starts at most at the span's start and less than one square
      before it. */
  lemma TileStartBounds(a: real, s: real)
    requires s > 0.0
    ensures TileStart(a, s) <= a < TileStart(a, s) + s
  {
    var q := a / s;
    var f := q.Floor as real;
    DivScale(a, s);
    FloorScale(a, s, q, f);
  }

  /** A whole number f with f <= q < f + 1, scaled by a positive s, lands at most s below q * s. */
  lemma FloorScale(a: real, s: real, q: real, f: real)
    requires s > 0.0 && q * s == a
    requires f <= q < f + 1.0
    ensures f * s <= a < f * s + s
  {
    ScaleLess(f, q, s);
    ScaleLess(q, f + 1.0, s);
    calc {
      a;
    ==
      q * s;
    <
      (f + 1.0) * s;
    ==
      f * s + s;
    }
  }

  lemma DivScale(a: real, s: real)
    requires s > 0.0
    ensures a / s * s == a
  {
  }

  /** The squares of a span: each is an s-by-s square at height y whose x is a whole multiple
      of s and lies below b; consecutive squares abut; and when a < b there is at least one
      square, the first starts at or before a and the last reaches b, so they cover [a, b). */
  lemma SpanTilesSound(a: real, b: real, y: real, s: real)
    requires s > 0.0
    ensures forall k :: 0 <= k < |SpanTiles(a, b, y, s)| ==>
              exists z: int :: SpanTiles(a, b, y, s)[k] == Square(GridLine(z, s), y, s) && GridLine(z, s) < b
    ensures forall k :: 0 <= k < |SpanTiles(a, b, y, s)| - 1 ==>
              SpanTiles(a, b, y, s)[k + 1][0].x == SpanTiles(a, b, y, s)[k][0].x + s
    ensures a < b ==>
              && |SpanTiles(a, b, y, s)| > 0
              && SpanTiles(a, b, y, s)[0][0].x <= a
              && SpanTiles(a, b, y, s)[|SpanTiles(a, b, y, s)| - 1][0].x + s >= b
  {
    var start := TileStart(a, s);
    var f := (a / s).Floor;
    var tiles := SpanTiles(a, b, y, s);
    var m := |tiles|;
    forall k | 0 <= k < m
      ensures exists z: int :: tiles[k] == Square(GridLine(z, s), y, s) && GridLine(z, s) < b
    {
      assert StepAt(start, s, k) == GridLine(f + k, s) by {
        assert (f + k) as real * s == f as real * s + k as real * s;
      }
      assert tiles[k] == Square(GridLine(f + k, s), y, s) && GridLine(f + k, s) < b;
    }
    forall k | 0 <= k < m - 1
      ensures tiles[k + 1][0].x == tiles[k][0].x + s
    {
      StepNext(start, s, k);
    }
    if a < b {
      TileStartBounds(a, s);
      assert StepAt(start, s, 0) == start;
      StepNext(start, s, m - 1);
    }
  }

  /** q is an s-by-s square at a row height y0 + j*s below maxY with an x that is a whole
      multiple of s. */
  ghost predicate GridAlignedTile(q: Polygon, y0: real, maxY: real, s: real)
  {
    exists j: nat, z: int :: StepAt(y0, s, j) < maxY && q == Square(GridLine(z, s), StepAt(y0, s, j), s)
  }

  /** The promises of createSquarePolygonsV2: a polygon without points yields nothing, and
      every square is s by s at a row height minY + j*s below maxY with an x that is a whole
      multiple of s. */
  lemma TiledSound(poly: Polygon, s: real)
    requires s > 0.0
    ensures poly == [] ==> Tiled(poly, s) == []
    ensures forall q :: q in Tiled(poly, s) ==>
              GridAlignedTile(q, BoundingBox(poly).value.minY, BoundingBox(poly).value.maxY, s)
  {
    if poly != [] {
      var b := BoundingBox(poly).value;
      var n := StepCount(b.minY, b.maxY, s);
      assert Tiled(poly, s) == TiledRows(poly, b.minY, s, n);
      TiledRowsSound(poly, b.minY, s, n);
      forall q | q in Tiled(poly, s)
        ensures GridAlignedTile(q, b.minY, b.maxY, s)
      {
        var j: nat, z: int :| j < n && q == Square(GridLine(z, s), StepAt(b.minY, s, j), s);
        assert StepAt(b.minY, s, j) < b.maxY;
      }
    } else {
      assert Tiled(poly, s) == [];
    }
  }

  /** Every square of the first n rows sits at a row height y0 + j*s (j < n) with an x that is
      a whole multiple of s. */
  lemma {:induction false} TiledRowsSound(poly: Polygon, y0: real, s: real, n: nat)
    requires s > 0.0
    ensures forall q :: q in TiledRows(poly, y0, s, n) ==>
              exists j: nat, z: int :: j < n && q == Square(GridLine(z, s), StepAt(y0, s, j), s)
  {
    if n > 0 {
      TiledRowsSound(poly, y0, s, n - 1);
      var y := StepAt(y0, s, n - 1);
      var xs := RowCrossingsSorted(poly, y);
      TiledSpansSound(xs, y, s, |xs| / 2);
    }
  }

  /** Every square of the first k spans sits at height y with an x that is a whole multiple of s. */
  lemma {:induction false} TiledSpansSound(xs: seq<real>, y: real, s: real, k: nat)
    requires s > 0.0 && k <= |xs| / 2
    ensures forall q :: q in TiledSpans(xs, y, s, k) ==> exists z: int :: q == Square(GridLine(z, s), y, s)
  {
    if k > 0 {
      TiledSpansSound(xs, y, s, k - 1);
      var a, b := xs[2 * k - 2], xs[2 * k - 1];
      SpanTilesSound(a, b, y, s);
      forall q | q in SpanTiles(a, b, y, s)
        ensures exists z: int :: q == Square(GridLine(z, s), y, s)
      {
        var p :| 0 <= p < |SpanTiles(a, b, y, s)| && SpanTiles(a, b, y, s)[p] == q;
        var z: int :| SpanTiles(a, b, y, s)[p] == Square(GridLine(z, s), y, s) && GridLine(z, s) < b;
      }
    }
  }

  // ---------------------------------------------------------------------------------------
  // Each square once (createSquarePolygonsV2 with the repeat removed)

  /** The grid index of a span's first square: TileStart(a) is FirstTile(a) whole steps from 0. */
  function FirstTile(a: real, s: real): int
    requires s > 0.0
  {
    (a / s).Floor
  }

  /** The t-th square of a span is the square at grid index FirstTile(a) + t. */
  lemma SpanTileAt(a: real, b: real, y: real, s: real, t: int)
    requires s > 0.0 && 0 <= t < |SpanTiles(a, b, y, s)|
    ensures SpanTiles(a, b, y, s)[t] == Square(GridLine(FirstTile(a, s) + t, s), y, s)
  {
    var f := FirstTile(a, s);
    assert TileStart(a, s) == GridLine(f, s);
    assert StepAt(TileStart(a, s), s, t) == GridLine(f + t, s) by {
      assert (f + t) as real * s == f as real * s + t as real * s;
    }
  }

  /** Squares of one row at grid indices z1 < z2 share no interior. */
  lemma GridGap(z1: int, z2: int, y: real, s: real)
    requires s > 0.0 && z1 < z2
    ensures Separated(Square(GridLine(z1, s), y, s), Square(GridLine(z2, s), y, s))
  {
    StepAtGap(0.0, s, z1, z2);
  }

  /** A span that starts no further right has its first square no further right. */
  lemma FirstTileMono(a: real, c: real, s: real)
    requires s > 0.0 && a <= c
    ensures FirstTile(a, s) <= FirstTile(c, s)
  {
    DivScale(a, s);
    DivScale(c, s);
    ScaleLess(c / s, a / s, s);
  }

  /** The number of squares of span k. */
  function SpanCount(xs: seq<real>, s: real, k: nat): nat
    requires s > 0.0 && k < |xs| / 2
  {
    |SpanTiles(xs[2 * k], xs[2 * k + 1], 0.0, s)|
  }

  /** One past the largest grid index among the squares of the first k >= 1 spans (the first
      span's first index when none of them has a square). */
  function TilesEnd(xs: seq<real>, s: real, k: nat): int
    requires s > 0.0 && 1 <= k <= |xs| / 2
  {
    var last := FirstTile(xs[2 * k - 2], s) + SpanCount(xs, s, k - 1);
    if k == 1 then last
    else
      var before := TilesEnd(xs, s, k - 1);
      if before <= last then last else before
  }

  /** How many leading squares of span k lie below TilesEnd, that is, at indices an earlier
      span already reached. */
  function Skip(xs: seq<real>, s: real, k: nat): (d: nat)
    requires s > 0.0 && k < |xs| / 2
    ensures d <= SpanCount(xs, s, k)
  {
    if k == 0 then 0
    else
      var d := TilesEnd(xs, s, k) - FirstTile(xs[2 * k], s);
      if d <= 0 then 0 else if d < SpanCount(xs, s, k) then d else SpanCount(xs, s, k)
  }

  /** The pair loop of createSquarePolygonsV2 with each span's x started at the larger of
      floor(startX / s) * s and the end of the squares emitted before it. */
  function FreshSpans(xs: seq<real>, y: real, s: real, k: nat): seq<Polygon>
    requires s > 0.0 && k <= |xs| / 2
  {
    if k == 0 then []
    else FreshSpans(xs, y, s, k - 1) + SpanTiles(xs[2 * k - 2], xs[2 * k - 1], y, s)[Skip(xs, s, k - 1)..]
  }

  /** q is the square of the row at height y at a grid index below zEnd. */
  ghost predicate TileBelow(q: Polygon, zEnd: int, y: real, s: real)
  {
    exists z: int :: z < zEnd && q == Square(GridLine(z, s), y, s)
  }

  /** Appending squares at consecutive grid indices from z0 on, all at or right of every
      index already used, keeps the row's squares pairwise separated. */
  lemma AppendTiles(prev: seq<Polygon>, added: seq<Polygon>, y: real, s: real, zPrev: int, z0: int, zEnd: int)
    requires s > 0.0
    requires PairwiseSeparated(prev)
    requires forall a :: 0 <= a < |prev| ==> InRow(prev[a], y, s) && TileBelow(prev[a], zPrev, y, s)
    requires forall t :: 0 <= t < |added| ==> added[t] == Square(GridLine(z0 + t, s), y, s)
    requires |added| > 0 ==> zPrev <= z0
    requires zPrev <= zEnd && z0 + |added| <= zEnd
    ensures PairwiseSeparated(prev + added)
    ensures forall a :: 0 <= a < |prev + added| ==> InRow((prev + added)[a], y, s) && TileBelow((prev + added)[a], zEnd, y, s)
  {
    var all := prev + added;
    forall a, b | 0 <= a < b < |all|
      ensures Separated(all[a], all[b])
    {
      if b < |prev| {
        assert all[a] == prev[a] && all[b] == prev[b];
      } else if a >= |prev| {
        assert all[a] == added[a - |prev|] && all[b] == added[b - |prev|];
        GridGap(z0 + (a - |prev|), z0 + (b - |prev|), y, s);
      } else {
        assert all[a] == prev[a] && all[b] == added[b - |prev|];
        var z: int :| z < zPrev && prev[a] == Square(GridLine(z, s), y, s);
        GridGap(z, z0 + (b - |prev|), y, s);
      }
    }
    forall a | 0 <= a < |all|
      ensures InRow(all[a], y, s) && TileBelow(all[a], zEnd, y, s)
    {
      if a < |prev| {
        assert all[a] == prev[a];
        var z: int :| z < zPrev && prev[a] == Square(GridLine(z, s), y, s);
        assert z < zEnd;
      } else {
        assert all[a] == added[a - |prev|];
        assert z0 + (a - |prev|) < zEnd;
      }
    }
  }

  /** The squares span j adds in FreshSpans: consecutive grid indices from FirstTile + Skip,
      none below the end of the earlier spans, all below the end after span j. */
  lemma AddedTiles(xs: seq<real>, y: real, s: real, j: nat)
    requires s > 0.0 && j < |xs| / 2
    ensures var added := SpanTiles(xs[2 * j], xs[2 * j + 1], y, s)[Skip(xs, s, j)..];
            var z0 := FirstTile(xs[2 * j], s) + Skip(xs, s, j);
            && (forall t :: 0 <= t < |added| ==> added[t] == Square(GridLine(z0 + t, s), y, s))
            && z0 + |added| <= TilesEnd(xs, s, j + 1)
            && (j >= 1 ==> TilesEnd(xs, s, j) <= TilesEnd(xs, s, j + 1))
            && (j >= 1 && |added| > 0 ==> TilesEnd(xs, s, j) <= z0)
  {
    var a0, b0 := xs[2 * j], xs[2 * j + 1];
    var d := Skip(xs, s, j);
    var span := SpanTiles(a0, b0, y, s);
    assert |span| == SpanCount(xs, s, j);
    var added := span[d..];
    forall t | 0 <= t < |added|
      ensures added[t] == Square(GridLine(FirstTile(a0, s) + d + t, s), y, s)
    {
      SpanTileAt(a0, b0, y, s, d + t);
    }
  }

  /** The squares of the first k spans of a span list, with earlier repeats left out, share no
      interior, lie in the row at y and sit below TilesEnd. */
  lemma {:induction false} FreshSpansBelow(xs: seq<real>, y: real, s: real, k: nat)
    requires s > 0.0 && k <= |xs| / 2
    ensures PairwiseSeparated(FreshSpans(xs, y, s, k))
    ensures forall a :: 0 <= a < |FreshSpans(xs, y, s, k)| ==> InRow(FreshSpans(xs, y, s, k)[a], y, s)
    ensures k >= 1 ==> forall a :: 0 <= a < |FreshSpans(xs, y, s, k)| ==>
              TileBelow(FreshSpans(xs, y, s, k)[a], TilesEnd(xs, s, k), y, s)
  {
    if k > 0 {
      var j := k - 1;
      FreshSpansBelow(xs, y, s, j);
      AddedTiles(xs, y, s, j);
      var prev := FreshSpans(xs, y, s, j);
      var added := SpanTiles(xs[2 * j], xs[2 * j + 1], y, s)[Skip(xs, s, j)..];
      var z0 := FirstTile(xs[2 * j], s) + Skip(xs, s, j);
      assert FreshSpans(xs, y, s, k) == prev + added;
      var zPrev := if j == 0 then z0 else TilesEnd(xs, s, j);
      AppendTiles(prev, added, y, s, zPrev, z0, TilesEnd(xs, s, k));
    }
  }

  /** A whole row with the repeats left out: its squares share no interior and lie in the row. */
  lemma FreshSpansSeparated(xs: seq<real>, y: real, s: real)
    requires s > 0.0
    ensures PairwiseSeparated(FreshSpans(xs, y, s, |xs| / 2))
    ensures forall a :: 0 <= a < |FreshSpans(xs, y, s, |xs| / 2)| ==> InRow(FreshSpans(xs, y, s, |xs| / 2)[a], y, s)
  {
    FreshSpansBelow(xs, y, s, |xs| / 2);
  }

  /** TilesEnd is reached by one of the spans: it is one past the last index of some span i < k. */
  lemma {:induction false} TilesEndAttained(xs: seq<real>, s: real, k: nat)
    requires s > 0.0 && 1 <= k <= |xs| / 2
    ensures exists i :: 0 <= i < k && TilesEnd(xs, s, k) == FirstTile(xs[2 * i], s) + SpanCount(xs, s, i)
  {
    var last := FirstTile(xs[2 * (k - 1)], s) + SpanCount(xs, s, k - 1);
    if k == 1 || TilesEnd(xs, s, k - 1) <= last {
      assert TilesEnd(xs, s, k) == last;
    } else {
      TilesEndAttained(xs, s, k - 1);
      var i :| 0 <= i < k - 1 && TilesEnd(xs, s, k - 1) == FirstTile(xs[2 * i], s) + SpanCount(xs, s, i);
      assert TilesEnd(xs, s, k) == TilesEnd(xs, s, k - 1);
    }
  }

  /** Every square of span i is among the squares of the first k > i spans. */
  lemma {:induction false} SpanInTiled(xs: seq<real>, y: real, s: real, i: nat, k: nat)
    requires s > 0.0 && i < k <= |xs| / 2
    ensures forall q :: q in SpanTiles(xs[2 * i], xs[2 * i + 1], y, s) ==> q in TiledSpans(xs, y, s, k)
  {
    if i < k - 1 {
      SpanInTiled(xs, y, s, i, k - 1);
    }
  }

  /** A skipped square of span j lies below the end of the squares of the spans before it. */
  lemma SkipBelowEnd(xs: seq<real>, s: real, j: nat, t: nat)
    requires s > 0.0 && j < |xs| / 2 && t < Skip(xs, s, j)
    ensures 1 <= j && t < SpanCount(xs, s, j) && FirstTile(xs[2 * j], s) + t < TilesEnd(xs, s, j)
  {
  }

  /** With sorted crossings, every square FreshSpans leaves out of span j was emitted by an
      earlier span. */
  lemma RepeatEmitted(xs: seq<real>, y: real, s: real, j: nat, t: nat)
    requires s > 0.0 && j < |xs| / 2 && Sorted(xs)
    requires t < Skip(xs, s, j)
    ensures SpanTiles(xs[2 * j], xs[2 * j + 1], y, s)[t] in TiledSpans(xs, y, s, j)
  {
    var f := FirstTile(xs[2 * j], s);
    var span := SpanTiles(xs[2 * j], xs[2 * j + 1], y, s);
    assert |span| == SpanCount(xs, s, j);
    SkipBelowEnd(xs, s, j, t);
    SpanTileAt(xs[2 * j], xs[2 * j + 1], y, s, t);
    TilesEndAttained(xs, s, j);
    var i :| 0 <= i < j && TilesEnd(xs, s, j) == FirstTile(xs[2 * i], s) + SpanCount(xs, s, i);
    FirstTileMono(xs[2 * i], xs[2 * j], s);
    var fi := FirstTile(xs[2 * i], s);
    var earlier := SpanTiles(xs[2 * i], xs[2 * i + 1], y, s);
    assert |earlier| == SpanCount(xs, s, i);
    SpanTileAt(xs[2 * i], xs[2 * i + 1], y, s, f + t - fi);
    assert span[t] == earlier[f + t - fi];
    SpanInTiled(xs, y, s, i, j);
  }

  /** With sorted crossings, leaving out the repeats keeps every square: FreshSpans and the
      source's TiledSpans hold the same squares. */
  lemma {:induction false} FreshSpansSame(xs: seq<real>, y: real, s: real, k: nat)
    requires s > 0.0 && k <= |xs| / 2 && Sorted(xs)
    ensures forall q :: q in FreshSpans(xs, y, s, k) <==> q in TiledSpans(xs, y, s, k)
  {
    if k > 0 {
      var j := k - 1;
      FreshSpansSame(xs, y, s, j);
      var span := SpanTiles(xs[2 * j], xs[2 * j + 1], y, s);
      var d := Skip(xs, s, j);
      assert |span| == SpanCount(xs, s, j);
      assert FreshSpans(xs, y, s, k) == FreshSpans(xs, y, s, j) + span[d..];
      assert TiledSpans(xs, y, s, k) == TiledSpans(xs, y, s, j) + span;
      forall t | 0 <= t < d
        ensures span[t] in TiledSpans(xs, y, s, j)
      {
        RepeatEmitted(xs, y, s, j, t);
      }
      assert span == span[..d] + span[d..];
    }
  }

  /** The rows of createSquarePolygonsV2 with the repeats of each row left out. */
  function FreshRows(poly: Polygon, y0: real, s: real, n: nat): seq<Polygon>
    requires s > 0.0
  {
    if n == 0 then []
    else
      var y := StepAt(y0, s, n - 1);
      var xs := RowCrossingsSorted(poly, y);
      FreshRows(poly, y0, s, n - 1) + FreshSpans(xs, y, s, |xs| / 2)
  }

  /** createSquarePolygonsV2 with the repeats left out. */
  function FreshTiled(poly: Polygon, s: real): seq<Polygon>
    requires s > 0.0
  {
    match BoundingBox(poly)
    case None => []
    case Some(b) => FreshRows(poly, b.minY, s, StepCount(b.minY, b.maxY, s))
  }

  /** The first n rows with the repeats left out share no interior, and each square spans
      the heights of one of those rows. */
  lemma {:induction false} FreshRowsSeparated(poly: Polygon, y0: real, s: real, n: nat)
    requires s > 0.0
    ensures PairwiseSeparated(FreshRows(poly, y0, s, n))
    ensures forall a :: 0 <= a < |FreshRows(poly, y0, s, n)| ==> InSomeRow(FreshRows(poly, y0, s, n)[a], y0, s, n)
  {
    if n > 0 {
      FreshRowsSeparated(poly, y0, s, n - 1);
      var y := StepAt(y0, s, n - 1);
      var xs := RowCrossingsSorted(poly, y);
      var below := FreshRows(poly, y0, s, n - 1);
      var row := FreshSpans(xs, y, s, |xs| / 2);
      assert FreshRows(poly, y0, s, n) == below + row;
      FreshSpansSeparated(xs, y, s);
      StackRow(below, row, y0, s, n - 1);
    }
  }

  /** Appending lists with the same members keeps the members the same. */
  lemma SameSquaresAppend(a: seq<Polygon>, b: seq<Polygon>, c: seq<Polygon>, d: seq<Polygon>)
    requires forall q :: q in a <==> q in c
    requires forall q :: q in b <==> q in d
    ensures forall q :: q in a + b <==> q in c + d
  {
  }

  /** The first n rows with the repeats left out hold the same squares as the source's rows. */
  lemma {:induction false} FreshRowsSame(poly: Polygon, y0: real, s: real, n: nat)
    requires s > 0.0
    ensures forall q :: q in FreshRows(poly, y0, s, n) <==> q in TiledRows(poly, y0, s, n)
  {
    if n > 0 {
      FreshRowsSame(poly, y0, s, n - 1);
      var y := StepAt(y0, s, n - 1);
      var xs := RowCrossingsSorted(poly, y);
      var freshRow, tiledRow := FreshSpans(xs, y, s, |xs| / 2), TiledSpans(xs, y, s, |xs| / 2);
      assert FreshRows(poly, y0, s, n) == FreshRows(poly, y0, s, n - 1) + freshRow;
      assert TiledRows(poly, y0, s, n) == TiledRows(poly, y0, s, n - 1) + tiledRow;
      FreshSpansSame(xs, y, s, |xs| / 2);
      SameSquaresAppend(FreshRows(poly, y0, s, n - 1), freshRow, TiledRows(poly, y0, s, n - 1), tiledRow);
    }
  }

  /** The corrected createSquarePolygonsV2: no two squares share interior, so none is emitted
      twice, and the squares are exactly those of the source. */
  lemma FreshTiledSound(poly: Polygon, s: real)
    requires s > 0.0
    ensures PairwiseSeparated(FreshTiled(poly, s))
    ensures forall q :: q in FreshTiled(poly, s) <==> q in Tiled(poly, s)
  {
    if poly != [] {
      var b := BoundingBox(poly).value;
      FreshRowsSeparated(poly, b.minY, s, StepCount(b.minY, b.maxY, s));
      FreshRowsSame(poly, b.minY, s, StepCount(b.minY, b.maxY, s));
    }
  }

  /** A U-shaped polygon whose middle row crosses it at 0.5, 1.2, 1.5 and 3. */
  function UShape(): Polygon
  {
    [ Point(0.5, 0.0), Point(3.0, 0.0), Point(3.0, 2.0), Point(1.5, 2.0)
    , Point(1.5, 0.5), Point(1.2, 0.5), Point(1.2, 2.0), Point(0.5, 2.0) ]
  }

  /** One more edge adds its crossing when it spans the row and nothing otherwise. */
  lemma RowCrossingsNext(pts: Polygon, y: real, k: nat)
    requires k < |pts|
    ensures EdgeSpansRow(pts, k, y) ==> RowCrossings(pts, y, k + 1) == RowCrossings(pts, y, k) + [EdgeCrossX(pts, k, y)]
    ensures !EdgeSpansRow(pts, k, y) ==> RowCrossings(pts, y, k + 1) == RowCrossings(pts, y, k)
  {
  }

  /** Edge i joins point i to the next one, and the last edge joins the last point to the first. */
  lemma EdgeOf(pts: Polygon, i: nat, y: real, a: Point, b: Point)
    requires i < |pts| && pts[i] == a
    requires if i + 1 < |pts| then pts[i + 1] == b else pts[0] == b
    ensures EdgeSpansRow(pts, i, y) == SpansRow(a, b, y)
    ensures SpansRow(a, b, y) ==> EdgeCrossX(pts, i, y) == CrossX(a, b, y)
  {
    assert Next(i, |pts|) == if i + 1 < |pts| then i + 1 else 0;
  }

  /** The edges of UShape that lie along the row direction never span a row. */
  lemma UShapeFlatEdges(u: Polygon)
    requires u == UShape()
    ensures !EdgeSpansRow(u, 0, 1.0) && !EdgeSpansRow(u, 2, 1.0) && !EdgeSpansRow(u, 4, 1.0) && !EdgeSpansRow(u, 6, 1.0)
  {
    EdgeOf(u, 0, 1.0, Point(0.5, 0.0), Point(3.0, 0.0));
    EdgeOf(u, 2, 1.0, Point(3.0, 2.0), Point(1.5, 2.0));
    EdgeOf(u, 4, 1.0, Point(1.5, 0.5), Point(1.2, 0.5));
    EdgeOf(u, 6, 1.0, Point(1.2, 2.0), Point(0.5, 2.0));
  }

  /** An upright edge spans every row between its ends and crosses it at its own x. */
  lemma UprightEdge(pts: Polygon, i: nat, x: real, y0: real, y1: real, y: real)
    requires i < |pts| && pts[i] == Point(x, y0)
    requires if i + 1 < |pts| then pts[i + 1] == Point(x, y1) else pts[0] == Point(x, y1)
    requires y0 != y1 && Min(y0, y1) <= y <= Max(y0, y1)
    ensures EdgeSpansRow(pts, i, y) && EdgeCrossX(pts, i, y) == x
  {
    EdgeOf(pts, i, y, Point(x, y0), Point(x, y1));
  }

  /** The upright edges of UShape span the row at height 1 and cross it at their own x. */
  lemma UShapeEdge1(u: Polygon)
    requires u == UShape()
    ensures EdgeSpansRow(u, 1, 1.0) && EdgeCrossX(u, 1, 1.0) == 3.0
  {
    UprightEdge(u, 1, 3.0, 0.0, 2.0, 1.0);
  }

  lemma UShapeEdge3(u: Polygon)
    requires u == UShape()
    ensures EdgeSpansRow(u, 3, 1.0) && EdgeCrossX(u, 3, 1.0) == 1.5
  {
    UprightEdge(u, 3, 1.5, 2.0, 0.5, 1.0);
  }

  lemma UShapeEdge5(u: Polygon)
    requires u == UShape()
    ensures EdgeSpansRow(u, 5, 1.0) && EdgeCrossX(u, 5, 1.0) == 1.2
  {
    UprightEdge(u, 5, 1.2, 0.5, 2.0, 1.0);
  }

  lemma UShapeEdge7(u: Polygon)
    requires u == UShape()
    ensures EdgeSpansRow(u, 7, 1.0) && EdgeCrossX(u, 7, 1.0) == 0.5
  {
    UprightEdge(u, 7, 0.5, 2.0, 0.0, 1.0);
  }

  /** The crossings of UShape's row at height 1, in edge order. */
  lemma UShapeCrossings(u: Polygon)
    requires u == UShape()
    ensures RowCrossings(u, 1.0, |u|) == [3.0, 1.5, 1.2, 0.5]
  {
    UShapeFlatEdges(u);
    UShapeEdge1(u);
    UShapeEdge3(u);
    UShapeEdge5(u);
    UShapeEdge7(u);
    RowCrossingsNext(u, 1.0, 0);
    RowCrossingsNext(u, 1.0, 1);
    RowCrossingsNext(u, 1.0, 2);
    RowCrossingsNext(u, 1.0, 3);
    RowCrossingsNext(u, 1.0, 4);
    RowCrossingsNext(u, 1.0, 5);
    RowCrossingsNext(u, 1.0, 6);
    RowCrossingsNext(u, 1.0, 7);
  }

  /** The crossings of UShape's row at height 1 are 0.5, 1.2, 1.5 and 3 in some order. */
  lemma UShapeCrossingValues(u: Polygon, want: seq<real>)
    requires u == UShape() && want == [0.5, 1.2, 1.5, 3.0]
    ensures multiset(RowCrossings(u, 1.0, |u|)) == multiset(want)
  {
    UShapeCrossings(u);
    ReversedFour(RowCrossings(u, 1.0, |u|), want);
  }

  /** Four values in reverse order are the same values. */
  lemma ReversedFour(xs: seq<real>, ys: seq<real>)
    requires |ys| == 4 && xs == [ys[3], ys[2], ys[1], ys[0]]
    ensures multiset(xs) == multiset(ys)
  {
    assert ys == [ys[0]] + [ys[1]] + [ys[2]] + [ys[3]];
    assert xs == [ys[3]] + [ys[2]] + [ys[1]] + [ys[0]];
  }

  /** The sorted crossings of UShape's row at height 1. */
  lemma UShapeMiddleRow(u: Polygon)
    requires u == UShape()
    ensures RowCrossingsSorted(u, 1.0) == [0.5, 1.2, 1.5, 3.0]
  {
    var want := [0.5, 1.2, 1.5, 3.0];
    UShapeCrossingValues(u, want);
    SortFinds(RowCrossings(u, 1.0, |u|), want);
  }

  /** UShape runs from height 0 to height 2. */
  lemma UShapeHeights(u: Polygon)
    requires u == UShape()
    ensures BoundingBox(u).Some? && BoundingBox(u).value.minY == 0.0 && BoundingBox(u).value.maxY == 2.0
  {
    var b := BoundingBox(u).value;
    assert InBox(b, u[0]) && InBox(b, u[2]);
    var i :| 0 <= i < |u| && u[i].y == b.minY;
    var j :| 0 <= j < |u| && u[j].y == b.maxY;
    assert 0.0 <= u[i].y && u[j].y <= 2.0;
  }

  /** The spans [0.5, 1.2] and [1.5, 3] both tile the square at (1, 1) when s = 1. */
  lemma UShapeRowTiles(xs: seq<real>)
    requires xs == [0.5, 1.2, 1.5, 3.0]
    ensures TiledSpans(xs, 1.0, 1.0, 2)
            == [Square(0.0, 1.0, 1.0), Square(1.0, 1.0, 1.0), Square(1.0, 1.0, 1.0), Square(2.0, 1.0, 1.0)]
  {
    assert TileStart(0.5, 1.0) == 0.0;
    assert TileStart(1.5, 1.0) == 1.0;
    assert StepAt(0.0, 1.0, 1) < 1.2 <= StepAt(0.0, 1.0, 2);
    assert StepAt(1.0, 1.0, 1) < 3.0 <= StepAt(1.0, 1.0, 2);
    assert SpanTiles(0.5, 1.2, 1.0, 1.0) == [Square(0.0, 1.0, 1.0), Square(1.0, 1.0, 1.0)];
    assert SpanTiles(1.5, 3.0, 1.0, 1.0) == [Square(1.0, 1.0, 1.0), Square(2.0, 1.0, 1.0)];
    TiledSpansStep(xs, 1.0, 1.0, 0);
    TiledSpansStep(xs, 1.0, 1.0, 1);
  }

  /** As written, createSquarePolygonsV2 emits the square at (1, 1) twice for UShape with
      s = 1: in the row at height 1 the span [0.5, 1.2] ends with it and the span [1.5, 3]
      starts with it, so two of the output squares share their whole interior. */
  lemma TiledRepeatsSquare(u: Polygon)
    requires u == UShape()
    ensures !PairwiseSeparated(Tiled(u, 1.0))
  {
    UShapeHeights(u);
    assert StepAt(0.0, 1.0, 1) < 2.0 <= StepAt(0.0, 1.0, 2);
    assert StepCount(0.0, 2.0, 1.0) == 2;
    assert StepAt(0.0, 1.0, 1) == 1.0;
    UShapeMiddleRow(u);
    var xs := RowCrossingsSorted(u, 1.0);
    UShapeRowTiles(xs);
    var row := TiledSpans(xs, 1.0, 1.0, 2);
    var below := TiledRows(u, 0.0, 1.0, 1);
    assert Tiled(u, 1.0) == below + row;
    assert !Separated(row[1], row[2]);
    assert (below + row)[|below| + 1] == row[1] && (below + row)[|below| + 2] == row[2];
  }
}
